=== FILE: README.md ===
# FastenerFailurePredictor, modelled in Dafny

FastenerFailurePredictor watches screw-tightening cycles and predicts whether each one
will fail. An offline sweep cuts the angle and torque curves of labelled cycles into
fixed-width windows and trains one ensemble per station folder and window size. At run
time three services cooperate:

- the prediction endpoint (`/predict`) loads a model and its scaler and classifies a batch;
- the data service (`/data`, `/update_model`, `/get_data`) accumulates the current cycle
  and asks for a prediction on every batch;
- the dashboard polls the data service, keeps its own copy of the cycle, tracks whether
  data is still arriving, and saves the plot of a failing cycle.

A one-off script normalises station folder names.

The project models the decision logic of each piece as pure functions over immutable
datatypes:

| file | module | models |
|---|---|---|
| `wrappers.dfy` | `Wrappers` | `Option`, `Result` |
| `text.dfy` | `Text` | `str.replace`, `split`, `startswith`, `endswith`, `str(int)`, `int(str)` |
| `storage.dfy` | `Storage` | artifact directory layout and file names |
| `segmenter.dfy` | `Segmenter` | `prepare_data`: window segmentation and feature rows |
| `training.dfy` | `Training` | `process_folder` control flow, label binarisation, the sweep |
| `model_service.dfy` | `ModelService` | `load_model_and_scaler`, `predict` |
| `prediction_service.dfy` | `PredictionService` | `update_model`, `receive_data`, `get_data` |
| `visualization.dfy` | `Visualization` | `get_models`, window-size parsing, `update_prediction_service`, `fetch_data`, `update_data`, plot saving |
| `rename_folders.dfy` | `RenameFolders` | the folder-renaming script |
| `end_to_end.dfy` | `EndToEnd` | how training, dashboard, data service and endpoint fit together |

Sample values are generic in the segmenter, because no arithmetic is done on them; they
are `real` elsewhere. A cell that pandas would hold as NaN is `Cell.Missing`. Time is an
integer number of microseconds, and the dashboard goes inactive after strictly more than
`10_000_000` of them. Everything the code gets from outside is a parameter:

- files on disk are a `set<Path>` or a listing;
- HTTP calls are an outcome value (a status, or a connection failure);
- the fitted scaler and classifier are uninterpreted functions of the path they were loaded from;
- whether resampling fails, and the ROC-AUC it reaches, are inputs.

A path is the list of components given to `os.path.join`.

Two behaviours of the code are easy to misread, so the model states them:

- The endpoint looks up both artifacts before it checks the batch length. A request with
  a missing model and a wrong length therefore gets 404, not 400
  (`ModelService.MissingModelWinsOverLength`).
- The data service sends only the current batch to `/predict`, never the accumulated
  cycle (`PredictionService.PredictionIgnoresHistory`).

The plot-saving decision also includes the guard that both lists are non-empty. The code
only plots, and so only saves, under that guard.

## Model

| member | source | states |
|---|---|---|
| Text.ReplaceChar | src/utils/Renombrar_carpetas.py:13 | `replace` of one character: length kept, each occurrence replaced, every other character kept in place |
| Text.ReplaceRemoves | src/utils/Renombrar_carpetas.py:13 | after replacing a character by a different one, none is left |
| Text.ReplaceIdempotent | src/utils/Renombrar_carpetas.py:13 | replacing twice is replacing once |
| Text.Split | app/visualization_service.py:76 | `split` on one character: at least one piece, no piece holds the separator, a string without the separator is its own only piece |
| Text.SplitJoin | app/visualization_service.py:76 | joining the pieces with the separator gives the string back; a separator makes at least two pieces |
| Text.FirstPiece | app/visualization_service.py:76 | `(p + sep + q).split(sep)[0] == p` when `p` has no separator |
| Text.LastPiece | app/visualization_service.py:96 | `(p + sep + q).split(sep)[-1] == q` when `q` has no separator |
| Text.IntToString | src/modelos_train/Entrenamiento_modelos.py:177-178 | `str(w)` is non-empty and holds no `_`, `.` or space, so it survives the name splits |
| Text.ParseInt | app/visualization_service.py:96 | no ensures of its own: `int()` on ASCII text, which strips space, `\t`, `\n`, `\v`, `\f` and `\r` (not U+001C to U+001F) and then reads an optional sign and digits with single underscores; `Text.IntRoundTrip`, `Text.ParseNeedsDigit` and `Text.LeadingJunkRefused` state what it accepts and refuses |
| Text.IntRoundTrip | app/visualization_service.py:96 | `int(str(i)) == i` for every integer (no limit on the number of digits) |
| Text.ParseNeedsDigit | app/visualization_service.py:108-109 | a string without digits is refused |
| Text.LeadingJunkRefused | app/visualization_service.py:96 | a string led by a character that `int()` neither strips nor reads as a sign or a digit, such as U+001C to U+001F, is refused |
| Segmenter.DropMissing | src/modelos_train/Entrenamiento_modelos.py:34-35 | `dropna` never lengthens a column and keeps a column without gaps as it is |
| Segmenter.DropMissingAppend | src/modelos_train/Entrenamiento_modelos.py:34-35 | missing values are dropped cell by cell, so order is preserved |
| Segmenter.Tiles | src/modelos_train/Entrenamiento_modelos.py:39-41 | the inner loop stops at the last offset with `j + w <= min_len`; less than one window is left over |
| Segmenter.TileAt | src/modelos_train/Entrenamiento_modelos.py:39-40 | row `k` starts at offset `j + k*w`, fits inside `min_len`, and is the angle slice followed by the torque slice |
| Segmenter.PairWindows | src/modelos_train/Entrenamiento_modelos.py:37-40 | the count is ⌊min_len / w⌋ under the strict guard `min_len > w`; row `k` is `angle[k*w..k*w+w] ++ torque[k*w..k*w+w]`, of width `2w`; the remainder is shorter than `w` |
| Segmenter.PairDataset | src/modelos_train/Entrenamiento_modelos.py:34-41 | as many labels as rows, each label is row 0 of the angle column, every row has width `2w` |
| Segmenter.PrepareData | src/modelos_train/Entrenamiento_modelos.py:28-43 | `len(X) == len(y)` and every row has width `2w` |
| Segmenter.RowCount | src/modelos_train/Entrenamiento_modelos.py:31-41 | the number of rows is the sum of ⌊min_len / w⌋ over the pairs that pass the guard |
| Segmenter.TrailingColumnIgnored | src/modelos_train/Entrenamiento_modelos.py:31-33 | an unpaired trailing column contributes nothing |
| Segmenter.LabelIsNeverASample | src/modelos_train/Entrenamiento_modelos.py:34-36 | changing row 0 of the angle column changes the labels only, never a feature row |
| Segmenter.TorqueHeaderIgnored | src/modelos_train/Entrenamiento_modelos.py:35 | row 0 of the torque column is never read |
| Segmenter.WindowLoop | src/modelos_train/Entrenamiento_modelos.py:37-41 | the loop over `range(0, min_len - w + 1, w)` builds exactly the rows `PairWindows` specifies |
| Segmenter.PrepareDataLoop | src/modelos_train/Entrenamiento_modelos.py:28-43 | the loop over column pairs builds exactly the dataset `PrepareData` specifies |
| Segmenter.PairTurn | src/modelos_train/Entrenamiento_modelos.py:32-41 | one turn of the outer loop, run by the inner `WindowLoop`, appends exactly the pair's dataset to what was built so far: its windows, each labelled with row 0 of the angle column |
| Segmenter.ExactMultipleScenario | src/modelos_train/Entrenamiento_modelos.py:37-42 | angle [1,2,3,4] and torque [5,6,7,8] with `w = 2` give [[1,2,5,6],[3,4,7,8]] |
| Segmenter.RemainderScenario | src/modelos_train/Entrenamiento_modelos.py:37-42 | angle [1,2,3] and torque [4,5,6] with `w = 2` give [[1,2,4,5]]; the remainder is dropped |
| Segmenter.ExactWindowIsNotEnough | src/modelos_train/Entrenamiento_modelos.py:38 | `min_len == w` yields no window |
| Segmenter.MissingTorqueCellShifts | src/modelos_train/Entrenamiento_modelos.py:34-40 | a gap in one column shifts that column's later samples but not the other column's |
| Training.Binarize | src/modelos_train/Entrenamiento_modelos.py:103 | every label 2 becomes 1; every other label, NaN included, is kept in place |
| Training.BinarizeLeavesNoTwo | src/modelos_train/Entrenamiento_modelos.py:103 | no label 2 is left |
| Training.BinarizeIdempotent | src/modelos_train/Entrenamiento_modelos.py:103 | binarising twice is binarising once |
| Training.AllRows | src/modelos_train/Entrenamiento_modelos.py:83-100 | the rows of every sheet in order: rows and labels pair up, width `2w` |
| Training.UsableSheets | src/modelos_train/Entrenamiento_modelos.py:83-92 | every kept sheet has a window; nothing is kept exactly when the folder has no window at all |
| Training.SkippingLosesNothing | src/modelos_train/Entrenamiento_modelos.py:86-100 | stacking only the kept sheets gives the same rows as stacking every sheet |
| Training.ModelName | src/modelos_train/Entrenamiento_modelos.py:166 | no ensures of its own: the metrics-table name `<folder>/ensemble_<w>`; `Training.ProcessFolder` and `FolderRows` state where it appears |
| Training.ProcessFolder | src/modelos_train/Entrenamiento_modelos.py:45-178 | no window anywhere ends the unit with nothing; a resampling failure ends it without a metric; otherwise it trains on all rows with binarised labels, names the metric `<folder>/ensemble_<w>`, and writes `ensemble_<w>.pkl` and `scaler_<w>.pkl` in the folder |
| Training.TrainedDataShape | src/modelos_train/Entrenamiento_modelos.py:99-103 | a trained unit fits on at least one row, all of width `2w`, one label per row, no label 2 |
| Training.Record | src/modelos_train/Entrenamiento_modelos.py:165-168 | only a completed unit appends its metric |
| Training.FolderRows | src/modelos_train/Entrenamiento_modelos.py:189-191 | one folder adds at most as many rows as there are window sizes, each naming this folder and one of the sizes; `Training.FolderRowsContent` states which rows |
| Training.RecordedContent | src/modelos_train/Entrenamiento_modelos.py:165-168 | over any run of units, the table gets exactly one row per unit that completes, holds the metric of every completed unit whatever failed before it, and holds no row that is not such a metric |
| Training.FolderRowsContent | src/modelos_train/Entrenamiento_modelos.py:165-168 | one folder's rows: one per window size whose unit completes; for each size `i` whose unit trains, its metric is among the rows; every row is the metric of a unit of the folder that trained |
| Training.SweepRows | src/modelos_train/Entrenamiento_modelos.py:188-191 | every row of the metrics table names a swept folder and one of the window sizes |
| Training.SweepBound | src/modelos_train/Entrenamiento_modelos.py:188-191 | at most (number of folders) × (number of window sizes) rows in all; `Training.SweepRowsContent` states which rows |
| Training.GridRows | src/modelos_train/Entrenamiento_modelos.py:188-190 | cell `[j][i]` of the sweep's grid is the unit of folder `j` at window size `i`: the outer loop runs over folders, the inner over sizes |
| Training.SweepRowsContent | src/modelos_train/Entrenamiento_modelos.py:165-191 | the whole table: one row per (folder, window size) unit that completes; the metric of every completed unit is present, even after other units failed; every row is the metric of some unit of the grid that trained |
| Training.ConfiguredSweep | src/modelos_train/Entrenamiento_modelos.py:23 | the configured window sizes 50, 100 and 500 are all valid, so each folder adds at most three rows |
| ModelService.ModelPath | app/model_service.py:64 | no ensures of its own: `<folder>/<model_name>.pkl`; `LoadModelAndScaler`, `ModelScalerCollide` and `EndToEnd.TrainedPathsAreLookedUp` state how it is used |
| ModelService.ScalerPath | app/model_service.py:65 | no ensures of its own: `<folder>/scaler_<w>.pkl`; `ScalerIgnoresModelName` states that the model name plays no part |
| ModelService.LoadModelAndScaler | app/model_service.py:64-81 | the model file is checked first, then the scaler file; success exactly when both exist |
| ModelService.MessagesDistinct | app/model_service.py:71-77 | the two not-found messages differ |
| ModelService.ScalerIgnoresModelName | app/model_service.py:65 | the scaler lookup does not depend on the model name |
| ModelService.ModelScalerCollide | app/model_service.py:64-65 | model and scaler paths coincide exactly when the model is named `scaler_<w>` |
| ModelService.Verdict | app/model_service.py:109 | `OK` exactly for class 0, otherwise `NOT OK` |
| ModelService.Predict | app/model_service.py:94-111 | 404 with the lookup message exactly when an artifact is missing; 400 with the size message exactly when both exist and a list has the wrong length; otherwise `OK` or `NOT OK` |
| ModelService.PredictSucceeds | app/model_service.py:99-111 | a verdict exactly when both artifacts exist and the lengths match; the features are `angle ++ torque`, of length `2w`; the verdict is the classifier's on the scaled features |
| ModelService.MissingModelWinsOverLength | app/model_service.py:94-101 | a missing model gets 404 whatever the batch length |
| ModelService.BadLengthIs400 | app/model_service.py:100-101 | with both artifacts present, an error happens exactly when either list has the wrong length, and it is 400 |
| PredictionService.UpdateModel | app/prediction_service.py:49-51 | the model is replaced wholesale and the stored cycle is untouched |
| PredictionService.PredictRequestFor | app/prediction_service.py:72-78 | the request carries the current model and only this batch's lists |
| PredictionService.StoredPrediction | app/prediction_service.py:80-90 | the returned value on 200, `Error` on any other status or a connection failure |
| PredictionService.ReceiveData | app/prediction_service.py:63-90 | a reset replaces the lists and any other batch extends them; flag, identifier and date always come from the batch; the model is never changed |
| PredictionService.GetData | app/prediction_service.py:94-102 | no ensures of its own: `get_data` returns the stored cycle and changes nothing; `PredictionService.ResetStartsCycle` and `ReplayAppends` state what that cycle holds |
| PredictionService.ReceiveLive | app/prediction_service.py:63-90 | no ensures of its own: `receive_data` with the batch posted to the endpoint; `MismatchStoresError`, `MissingArtifactStoresError`, `GoodBatchStoresVerdict`, `PredictionIgnoresHistory` and `NoModelYet` state what it stores |
| PredictionService.Call | app/prediction_service.py:81-90 | a verdict reaches the service as a 200; a 404 or 400 keeps its status; an unreachable endpoint is a connection failure |
| PredictionService.MismatchStoresError | app/prediction_service.py:72-90 | a batch whose length differs from the window size is stored as `Error` |
| PredictionService.MissingArtifactStoresError | app/prediction_service.py:72-90 | a missing artifact is stored as `Error` |
| PredictionService.GoodBatchStoresVerdict | app/prediction_service.py:72-90 | with everything in place, the stored prediction is the verdict on this batch |
| PredictionService.PredictionIgnoresHistory | app/prediction_service.py:72-78 | the stored prediction does not depend on the samples accumulated earlier |
| PredictionService.Replay | app/prediction_service.py:63-70 | no sequence of batches changes the model |
| PredictionService.ReplayAppends | app/prediction_service.py:66-67 | batches without a reset extend the lists by all their samples, in order |
| PredictionService.ResetStartsCycle | app/prediction_service.py:64-67 | after a reset, `get_data` holds exactly the samples of the new cycle |
| PredictionService.LastOutcomeWins | app/prediction_service.py:68-90 | prediction, identifier and reset flag come from the last batch |
| PredictionService.ResetScenario | app/prediction_service.py:64-70 | a reset batch for `car42` replaces the older cycle completely and keeps the model |
| PredictionService.NoModelYet | app/prediction_service.py:37 | before `update_model`, a batch with samples in either list is stored as `Error` |
| Visualization.Stem | app/visualization_service.py:76 | the listed name is a dot-free prefix of the file name |
| Visualization.GetModels | app/visualization_service.py:76 | every pickle that is not a scaler is listed by its stem, and every listed name is the stem of such a file |
| Visualization.GetModelsAppend | app/visualization_service.py:76 | the listing's order is kept, duplicates included: listing `a` then `b` lists `a`'s models then `b`'s |
| Visualization.FirstModelPreselected | app/visualization_service.py:76-83 | the model the sidebar preselects is the stem of the first model file in the listing |
| Visualization.StemOfPickle | app/visualization_service.py:76 | `<name>.pkl` is listed as `<name>` when the name has no dot |
| Visualization.DottedNameIsCut | app/visualization_service.py:76 | `ensemble.v2.pkl` is listed as `ensemble` |
| Visualization.ParseWindowSize | app/visualization_service.py:96 | a name without `_` is parsed as a whole |
| Visualization.WindowSizeSuffix | app/visualization_service.py:96 | any name ending in `_<w>` gives window size `w` |
| Visualization.EnsembleWindowSize | app/visualization_service.py:96 | `ensemble_<w>` gives window size `w` |
| Visualization.NoDigitNoWindowSize | app/visualization_service.py:96-109 | a last piece without digits is reported as an error |
| Visualization.SeparatorPaddedSizeRefused | app/visualization_service.py:96-109 | a name whose last piece starts with U+001C to U+001F, such as `ensemble_\x1c50`, gives no window size, so the error is shown and nothing is sent |
| Visualization.UpdatePredictionService | app/visualization_service.py:89-109 | nothing is sent exactly when the window size cannot be read; otherwise folder, name and size are sent; the message follows the outcome |
| Visualization.FetchData | app/visualization_service.py:116-129 | the service's cycle on 200; otherwise an empty payload without reset |
| Visualization.AlertSounds | app/visualization_service.py:152-154 | no ensures of its own: the sound plays for an accepted payload predicted `NOT OK`; `AlertMatchesShownPrediction` and `FailedFetchIsInvisible` state when it does |
| Visualization.AlertMatchesShownPrediction | app/visualization_service.py:139-154 | the alert plays exactly when the poll is accepted and leaves `NOT OK` on screen |
| Visualization.FirstPoll | app/visualization_service.py:47-50 | a session starts active with an empty cycle and count 0; the first accepted payload is shown as it came, as cycle 1 exactly when it is a reset; an empty payload within 10 s changes nothing |
| Visualization.UpdateData | app/visualization_service.py:132-158 | an accepted payload sets the time, activity and prediction; a reset counts a cycle and replaces lists, identifier and date; other data extends the lists; an empty payload only switches activity off after strictly more than 10 s |
| Visualization.FailedFetchIsInvisible | app/visualization_service.py:127-158 | a failed poll leaves everything but activity unchanged; its `Error` never shows and never sounds the alert |
| Visualization.QuietPollActivity | app/visualization_service.py:155-158 | an empty poll never switches the dashboard on; it switches it off exactly after 10 s of silence |
| Visualization.ResetPolledTwice | app/visualization_service.py:141-146 | polling the same reset cycle twice counts two cycles |
| Visualization.CyclePolledTwice | app/visualization_service.py:147-149 | polling the same non-reset cycle twice appends its samples twice |
| Visualization.PollCountsResets | app/visualization_service.py:141-142 | the counter grows by exactly the number of reset payloads polled |
| Visualization.FailedPollsGoInactive | app/visualization_service.py:155-158 | failed polls switch the dashboard off once 10 s have passed |
| Visualization.SafeDate | app/visualization_service.py:191 | no ensures of its own: `fecha` with `:` and `/` replaced by `-`; `SafeDateClean` states its content |
| Visualization.SafeDateClean | app/visualization_service.py:191 | the safe date keeps its length, holds no `:` or `/`, and cleaning is idempotent |
| Visualization.SaveDecision | app/visualization_service.py:176-211 | no plot without samples in both lists; saved under `graficas/<id>/` exactly when active, saving on and `NOT OK`; otherwise the first failing condition is reported |
| Visualization.GraphFileName | app/visualization_service.py:200 | no ensures of its own: `<safe date>_<folder>_<id>_<prediction>.png`; `GraphFileNameSafe` and `SaveDecision` state its content |
| Visualization.GraphFileNameSafe | app/visualization_service.py:191-200 | the plot file name ends in `.png` and has no `:` or `/` when its parts have none |
| RenameFolders.NewName | src/utils/Renombrar_carpetas.py:13 | no ensures of its own: `folder_name.replace(" ", "_")`; `RenameFolders.NewNameShape`, `NewNameIdempotent` and `NotInjective` state its content |
| RenameFolders.NewNameShape | src/utils/Renombrar_carpetas.py:13 | the new name has no space, the same length, `_` where spaces were and the other characters in place |
| RenameFolders.NewNameIdempotent | src/utils/Renombrar_carpetas.py:13 | renaming twice is renaming once; a name without spaces is kept |
| RenameFolders.NotInjective | src/utils/Renombrar_carpetas.py:13 | `a b` and `a_b` both become `a_b` |
| RenameFolders.RenamePlan | src/utils/Renombrar_carpetas.py:7-17 | each rename targets the space-free new name |
| RenameFolders.PlanCoversDirs | src/utils/Renombrar_carpetas.py:7-17 | exactly the directories are renamed, once each, in listing order |
| EndToEnd.ArtifactsListed | src/modelos_train/Entrenamiento_modelos.py:177-178 | of the two files training writes, the dashboard lists only the ensemble, under the name it is loaded by |
| EndToEnd.EnsembleIsListed | src/modelos_train/Entrenamiento_modelos.py:177 | the file `ensemble_<w>.pkl` passes the dashboard's filter and is listed as `ensemble_<w>`, because `str(w)` has no dot |
| EndToEnd.ScalerIsNotListed | src/modelos_train/Entrenamiento_modelos.py:178 | the file `scaler_<w>.pkl` is never offered as a model |
| EndToEnd.TrainedPathsAreLookedUp | app/model_service.py:64-65 | the paths training writes are the paths the endpoint looks up for `ensemble_<w>` |
| EndToEnd.ChosenEnsemblePredicts | app/visualization_service.py:96-101 | choosing a trained ensemble sends its training window size; a batch of that size gets a verdict, any other size gets `Error` |

## Left out

- Feature scaling, SMOTE resampling, both gradient-boosted classifiers, the soft-voting ensemble, the train/test split and ROC-AUC (src/modelos_train/Entrenamiento_modelos.py:105-162). These are numerical library code. Resampling failure and the score are inputs, and the fitted scaler and classifier are uninterpreted functions.
- Excel loading, column dropping, transposition and numeric coercion (src/modelos_train/Entrenamiento_modelos.py:55-80). The model starts from cleaned columns.
- A paired angle column without row 0 makes `iloc[0, i]` raise. `Segmenter.PrepareData` requires that row instead of modelling the exception.
- A window size of 0 makes `range` raise. Training only uses 50, 100 and 500, and the segmenter requires `w > 0`.
- An uncaught exception inside a unit, such as a split on too few rows, ends the whole sweep. It is not modelled.
- joblib (de)serialisation, `os.path.exists`, `listdir`, `makedirs`, `rename`, `savefig` and the CSV export. File existence is a set of paths, listings are sequences, and writes are the paths they target.
- The joining rules of `os.path.join`: a path is its list of components.
- Renaming onto an existing folder raises on Windows. `RenameFolders.RenamePlan` lists the renames the loop issues and not the file-system outcome.
- HTTP transport (FastAPI, requests, uvicorn, pydantic validation). A call is an outcome value. A 200 reply without a `prediction` key, and the 500 a scaler or classifier exception would cause, are not modelled.
- The response bodies `{"message": ...}`, the `/` and `/health` routes, and all logging.
- `app/main.py` is not part of this model: process orchestration only.
- Streamlit rendering, auto-refresh, matplotlib drawing and the pygame sound. `Visualization.AlertSounds` states only when the sound would play.
- Concurrency of the async handlers mutating shared dictionaries. One serialised sequence of calls is modelled.
- An empty model list makes the selected model `None`, and `split` then raises outside the handled errors. The model name is always a string here.
- Text.IntRoundTrip: CPython 3.11 and later, and the 3.8.14, 3.9.14 and 3.10.7 security releases, raise ValueError when `str()` or `int()` converts more than 4300 decimal digits. The model has no such limit, so a name ending in a longer number is read as a window size, where the dashboard would show the window-size error (app/visualization_service.py:108-109). The trained sizes have three digits.
- Visualization.WindowSizeSuffix: inherits the missing 4300-digit limit of `Text.IntRoundTrip`.
- Visualization.EnsembleWindowSize: inherits the missing 4300-digit limit of `Text.IntRoundTrip`.
- Visualization.ParseWindowSize: inherits the missing 4300-digit limit of `Text.IntRoundTrip`.
- EndToEnd.ChosenEnsemblePredicts: inherits the missing 4300-digit limit of `Text.IntRoundTrip`, through the window size read back from the name.
- Text.ParseInt: handles ASCII text only. Python's `int()` also accepts non-ASCII digits (for example Arabic-Indic digits) and strips non-ASCII white space, and CPython 3.11 and later (and the 3.8.14, 3.9.14 and 3.10.7 security releases) raise ValueError on more than 4300 digits. The model reads none of the first two and has no digit limit.
- Visualization.UpdatePredictionService: the texts of the error messages are not modelled, only which message is shown.

=== FILE: end_to_end.dfy ===
/** How the pieces fit: the artifacts training writes are the ones the dashboard lists,
    the window size the dashboard reads back from a listed name is the one training used,
    and the endpoint finds both artifacts of a trained unit. */
module EndToEnd {
  import opened Wrappers
  import opened Text
  import opened Storage
  import opened Training
  import opened ModelService
  import opened PredictionService
  import opened Visualization

  /** The two files training writes for window size `w`, as they appear in the folder. */
  function ArtifactListing(w: int): seq<string> {
    [EnsembleName(w) + PickleExt, ScalerFile(w)]
  }

  /** Of the two artifacts, the dashboard lists the ensemble only, under the name the
      model file is loaded by again. */
  lemma ArtifactsListed(folder: string, w: int)
    ensures GetModels(ArtifactListing(w)) == [EnsembleName(w)]
    ensures ModelPath(folder, GetModels(ArtifactListing(w))[0]) == InFolder(folder, EnsembleName(w) + PickleExt)
  {
    var e := EnsembleName(w) + PickleExt;
    var sc := ScalerFile(w);
    EnsembleIsListed(w);
    ScalerIsNotListed(w);
    GetModelsSingle(e);
    GetModelsSingle(sc);
    assert ArtifactListing(w) == [e] + [sc];
    GetModelsAppend([e], [sc]);
  }

  /** The ensemble file is a model file, listed under the ensemble's name. */
  lemma EnsembleIsListed(w: int)
    ensures IsModelFile(EnsembleName(w) + PickleExt)
    ensures Stem(EnsembleName(w) + PickleExt) == EnsembleName(w)
  {
    var e := EnsembleName(w) + PickleExt;
    assert '.' !in EnsembleName(w) by {
      assert EnsembleName(w) == "ensemble_" + IntToString(w);
    }
    StemOfPickle(EnsembleName(w));
    assert e[..6][0] != "scaler"[0];
  }

  /** The scaler file is not a model file. */
  lemma ScalerIsNotListed(w: int)
    ensures !IsModelFile(ScalerFile(w))
  {
    assert ScalerFile(w)[..6] == "scaler";
  }

  /** The paths a trained unit writes are the paths the endpoint looks up for the model
      `ensemble_<w>` of the same folder and window size. */
  lemma TrainedPathsAreLookedUp(folder: string, sheets: seq<Sheet>, w: nat, resampleFails: bool, rocAuc: real)
    requires 0 < w && SheetsReadable(sheets)
    requires ProcessFolder(folder, sheets, w, resampleFails, rocAuc).Trained?
    ensures var u := ProcessFolder(folder, sheets, w, resampleFails, rocAuc);
            && u.modelFile == ModelPath(folder, EnsembleName(w))
            && u.scalerFile == ScalerPath(folder, w)
  {
  }

  /** Choosing a trained ensemble on the dashboard: the window size read from its name
      is the training window size, so the data service is told the right model, and a
      batch of that many samples of each kind is then given a verdict, while any other
      length is stored as `Error`. */
  lemma ChosenEnsemblePredicts(folder: string, sheets: seq<Sheet>, w: nat, resampleFails: bool, rocAuc: real,
                               o: PostOutcome, s: State, b: Batch, files: set<Path>, scale: Scaler, classify: Classifier)
    requires 0 < w && SheetsReadable(sheets)
    requires ProcessFolder(folder, sheets, w, resampleFails, rocAuc).Trained?
    requires ProcessFolder(folder, sheets, w, resampleFails, rocAuc).modelFile in files
    requires ProcessFolder(folder, sheets, w, resampleFails, rocAuc).scalerFile in files
    ensures UpdatePredictionService(folder, EnsembleName(w), o).sent == Some(ModelInfo(folder, EnsembleName(w), w))
    ensures var t := UpdateModel(s, ModelInfo(folder, EnsembleName(w), w));
            var p := ReceiveLive(t, b, true, files, scale, classify).data.prediction;
            (p == "OK" || p == "NOT OK") <==> |b.angle| == w && |b.torque| == w
  {
    EnsembleWindowSize(w);
    var t := UpdateModel(s, ModelInfo(folder, EnsembleName(w), w));
    TrainedPathsAreLookedUp(folder, sheets, w, resampleFails, rocAuc);
    if |b.angle| == w && |b.torque| == w {
      GoodBatchStoresVerdict(t, b, files, scale, classify);
    } else {
      MismatchStoresError(t, b, true, files, scale, classify);
    }
  }
}

=== FILE: model_service.dfy ===
/** The prediction endpoint: it finds the two artifacts a request names, validates the
    batch length, scales the concatenated features and maps the predicted class to a
    verdict. File existence is the set of paths present; the fitted scaler and classifier
    stored at a path are uninterpreted functions of that path. */
module ModelService {
  import opened Wrappers
  import opened Text
  import opened Storage

  /** The body of `POST /predict`. */
  datatype PredictionRequest = PredictionRequest(
    modelFolder: string,
    modelName: string,
    windowSize: int,
    angle: seq<real>,
    torque: seq<real>)

  /** What the fitted artifacts compute, given the path they were loaded from. */
  type Scaler = (Path, seq<real>) -> seq<real>
  type Classifier = (Path, seq<real>) -> int

  /** `<root>/<folder>/<name>.pkl`: the model file is named after the request's model. */
  function ModelPath(folder: string, name: string): Path {
    InFolder(folder, name + PickleExt)
  }

  /** `<root>/<folder>/scaler_<w>.pkl`: the scaler file depends on the window size only. */
  function ScalerPath(folder: string, w: int): Path {
    InFolder(folder, ScalerFile(w))
  }

  /** Which artifact was not found. */
  datatype LoadError = ModelMissing | ScalerMissing

  /** The `FileNotFoundError` text of each lookup failure. */
  function Message(e: LoadError): string {
    match e
    case ModelMissing => "El modelo especificado no existe."
    case ScalerMissing => "El scaler especificado no existe."
  }

  /** The two artifacts, by the paths they are loaded from. */
  datatype Loaded = Loaded(model: Path, scaler: Path)

  /** `load_model_and_scaler`: the model file is looked up first, then the scaler file;
      the first one missing is reported, and nothing is loaded unless both exist. */
  function LoadModelAndScaler(folder: string, name: string, w: int, files: set<Path>): (r: Result<Loaded, LoadError>)
    ensures r.Success? <==> ModelPath(folder, name) in files && ScalerPath(folder, w) in files
    ensures r.Success? ==> r.value == Loaded(ModelPath(folder, name), ScalerPath(folder, w))
    ensures r == Failure(ModelMissing) <==> ModelPath(folder, name) !in files
    ensures r == Failure(ScalerMissing) <==> ModelPath(folder, name) in files && ScalerPath(folder, w) !in files
  {
    if ModelPath(folder, name) !in files then Failure(ModelMissing)
    else if ScalerPath(folder, w) !in files then Failure(ScalerMissing)
    else Success(Loaded(ModelPath(folder, name), ScalerPath(folder, w)))
  }

  /** The two not-found reasons can be told apart by their text. */
  lemma MessagesDistinct()
    ensures Message(ModelMissing) != Message(ScalerMissing)
  {
    assert Message(ModelMissing)[4] != Message(ScalerMissing)[4];
  }

  /** The model name plays no part in finding the scaler: once the model file is found,
      two models of one folder and window size succeed or fail together. */
  lemma ScalerIgnoresModelName(folder: string, n1: string, n2: string, w: int, files: set<Path>)
    requires ModelPath(folder, n1) in files && ModelPath(folder, n2) in files
    ensures LoadModelAndScaler(folder, n1, w, files).Success? == LoadModelAndScaler(folder, n2, w, files).Success?
    ensures LoadModelAndScaler(folder, n1, w, files).Failure? ==>
              LoadModelAndScaler(folder, n1, w, files) == LoadModelAndScaler(folder, n2, w, files)
  {
  }

  /** The model file and the scaler file coincide exactly when the model is named
      `scaler_<w>`; any other name keeps them apart. */
  lemma ModelScalerCollide(folder: string, name: string, w: int)
    ensures ModelPath(folder, name) == ScalerPath(folder, w) <==> name == "scaler_" + IntToString(w)
  {
    var sc := "scaler_" + IntToString(w);
    assert ScalerFile(w) == sc + PickleExt;
    if ModelPath(folder, name) == ScalerPath(folder, w) {
      assert ModelPath(folder, name).parts[2] == ScalerPath(folder, w).parts[2];
      assert name + PickleExt == sc + PickleExt;
      assert |name| == |sc|;
      assert name == (name + PickleExt)[..|name|];
      assert sc == (sc + PickleExt)[..|sc|];
    }
  }

  /** The verdict for a predicted class. */
  function Verdict(cls: int): (v: string)
    ensures v == "OK" <==> cls == 0
    ensures v == "OK" || v == "NOT OK"
  {
    if cls == 0 then "OK" else "NOT OK"
  }

  /** The reply of the endpoint: a verdict, or an HTTP error with its detail. */
  datatype Response = Prediction(verdict: string) | HttpError(status: int, detail: string)

  /** The 400 detail, which quotes the expected window size. */
  function LengthDetail(w: int): string {
    "El tamaño de los datos de ángulo y par debe ser " + IntToString(w) + "."
  }

  /** The batch matches the window size the request announces. */
  predicate LengthsMatch(req: PredictionRequest) {
    |req.angle| == req.windowSize && |req.torque| == req.windowSize
  }

  /** `predict`: a missing artifact answers 404 before the batch is looked at; a batch of
      the wrong length answers 400; otherwise the angle samples followed by the torque
      samples are scaled and classified, and class 0 reads `OK`. */
  function Predict(req: PredictionRequest, files: set<Path>, scale: Scaler, classify: Classifier): (r: Response)
    ensures r.HttpError? ==> r.status == 404 || r.status == 400
    ensures (r.HttpError? && r.status == 404) <==>
              LoadModelAndScaler(req.modelFolder, req.modelName, req.windowSize, files).Failure?
    ensures r.HttpError? && r.status == 404 ==>
              r.detail == Message(LoadModelAndScaler(req.modelFolder, req.modelName, req.windowSize, files).error)
    ensures (r.HttpError? && r.status == 400) <==>
              LoadModelAndScaler(req.modelFolder, req.modelName, req.windowSize, files).Success? && !LengthsMatch(req)
    ensures r.HttpError? && r.status == 400 ==> r.detail == LengthDetail(req.windowSize)
    ensures r.Prediction? ==> r.verdict == "OK" || r.verdict == "NOT OK"
  {
    match LoadModelAndScaler(req.modelFolder, req.modelName, req.windowSize, files)
    case Failure(e) => HttpError(404, Message(e))
    case Success(loaded) =>
      if !LengthsMatch(req) then HttpError(400, LengthDetail(req.windowSize))
      else
        var features := req.angle + req.torque;
        Prediction(Verdict(classify(loaded.model, scale(loaded.scaler, features))))
  }

  /** A verdict is given exactly when both artifacts exist and the batch has the announced
      length; it is the verdict of the class the model stored under the request's name
      gives to the scaled features `angle ++ torque`, which are `2 * w` long. */
  lemma PredictSucceeds(req: PredictionRequest, files: set<Path>, scale: Scaler, classify: Classifier)
    ensures Predict(req, files, scale, classify).Prediction? <==>
              ModelPath(req.modelFolder, req.modelName) in files
              && ScalerPath(req.modelFolder, req.windowSize) in files
              && LengthsMatch(req)
    ensures Predict(req, files, scale, classify).Prediction? ==>
              var features := req.angle + req.torque;
              && |features| == 2 * req.windowSize
              && features[..req.windowSize] == req.angle
              && features[req.windowSize..] == req.torque
              && Predict(req, files, scale, classify).verdict ==
                 Verdict(classify(ModelPath(req.modelFolder, req.modelName),
                                  scale(ScalerPath(req.modelFolder, req.windowSize), features)))
  {
    var r := Predict(req, files, scale, classify);
    if r.Prediction? {
      var features := req.angle + req.torque;
      assert features[..req.windowSize] == req.angle;
      assert features[req.windowSize..] == req.torque;
    }
  }

  /** A request whose model file is missing gets 404 with the model message, whatever
      its lengths: the artifact lookup comes first. */
  lemma MissingModelWinsOverLength(req: PredictionRequest, files: set<Path>, scale: Scaler, classify: Classifier)
    requires ModelPath(req.modelFolder, req.modelName) !in files
    ensures Predict(req, files, scale, classify) == HttpError(404, "El modelo especificado no existe.")
  {
  }

  /** The 400 answer comes exactly from a wrong length on either list once both
      artifacts exist. */
  lemma BadLengthIs400(req: PredictionRequest, files: set<Path>, scale: Scaler, classify: Classifier)
    requires ModelPath(req.modelFolder, req.modelName) in files
    requires ScalerPath(req.modelFolder, req.windowSize) in files
    ensures Predict(req, files, scale, classify).HttpError? <==>
              |req.angle| != req.windowSize || |req.torque| != req.windowSize
    ensures Predict(req, files, scale, classify).HttpError? ==>
              Predict(req, files, scale, classify) == HttpError(400, LengthDetail(req.windowSize))
  {
  }
}

=== FILE: prediction_service.dfy ===
/** The data service: a single-writer accumulator of one tightening cycle's samples. Each
    batch either starts a new cycle (reset) or extends the current one, and triggers a
    prediction on the batch alone against the model chosen last through `update_model`.
    Calls are taken one at a time, in the order they arrive. */
module PredictionService {
  import opened Storage
  import opened ModelService

  /** The model the service predicts with. */
  datatype ModelInfo = ModelInfo(modelFolder: string, modelName: string, windowSize: int)

  /** The stored cycle, as `get_data` returns it. */
  datatype Data = Data(
    angle: seq<real>,
    torque: seq<real>,
    prediction: string,
    reset: bool,
    identifier: string,
    date: string)

  /** The whole service state: the stored cycle and the chosen model. */
  datatype State = State(data: Data, modelInfo: ModelInfo)

  /** The body of `POST /data`. */
  datatype Batch = Batch(angle: seq<real>, torque: seq<real>, reset: bool, identifier: string, date: string)

  /** How the call to the prediction endpoint ended. */
  datatype RemoteOutcome = Reply(status: int, prediction: string) | ConnectionError

  /** The state at start-up: nothing stored, no model chosen (window size 0). */
  const Initial: State := State(Data([], [], "", false, "", ""), ModelInfo("", "", 0))

  /** `update_model`: the three fields of the request replace the model wholesale; the
      stored cycle is untouched. */
  function UpdateModel(s: State, info: ModelInfo): (t: State)
    ensures t.modelInfo == info
    ensures t.data == s.data
  {
    s.(modelInfo := info)
  }

  /** The request `receive_data` sends: the current model and only this batch's lists. */
  function PredictRequestFor(info: ModelInfo, b: Batch): (req: PredictionRequest)
    ensures req.angle == b.angle && req.torque == b.torque
    ensures req.modelFolder == info.modelFolder && req.modelName == info.modelName
    ensures req.windowSize == info.windowSize
  {
    PredictionRequest(info.modelFolder, info.modelName, info.windowSize, b.angle, b.torque)
  }

  /** What the stored prediction becomes: the returned value on 200, `Error` otherwise. */
  function StoredPrediction(o: RemoteOutcome): (p: string)
    ensures o.Reply? && o.status == 200 ==> p == o.prediction
    ensures !(o.Reply? && o.status == 200) ==> p == "Error"
  {
    if o.Reply? && o.status == 200 then o.prediction else "Error"
  }

  /** `receive_data`: a reset batch replaces the stored lists, any other batch extends
      them; the reset flag, identifier and date always come from the batch; the
      prediction comes from the outcome of the call; the model is never changed. */
  function ReceiveData(s: State, b: Batch, o: RemoteOutcome): (t: State)
    ensures t.modelInfo == s.modelInfo
    ensures b.reset ==> t.data.angle == b.angle && t.data.torque == b.torque
    ensures !b.reset ==> t.data.angle == s.data.angle + b.angle && t.data.torque == s.data.torque + b.torque
    ensures t.data.reset == b.reset && t.data.identifier == b.identifier && t.data.date == b.date
    ensures t.data.prediction == StoredPrediction(o)
  {
    var base := if b.reset then Data([], [], "", true, b.identifier, b.date) else s.data;
    var d := Data(base.angle + b.angle, base.torque + b.torque, StoredPrediction(o), b.reset, b.identifier, b.date);
    assert [] + b.angle == b.angle && [] + b.torque == b.torque;
    State(d, s.modelInfo)
  }

  /** `get_data`: the stored cycle; reading it changes nothing. */
  function GetData(s: State): Data {
    s.data
  }

  /** The prediction endpoint's answer as the data service sees it; `up` is whether the
      endpoint could be reached at all. */
  function Call(up: bool, r: Response): (o: RemoteOutcome)
    ensures !up ==> o == ConnectionError
    ensures up && r.Prediction? ==> o == Reply(200, r.verdict)
    ensures up && r.HttpError? ==> o == Reply(r.status, "")
  {
    if !up then ConnectionError
    else match r
      case Prediction(v) => Reply(200, v)
      case HttpError(status, _) => Reply(status, "")
  }

  /** `receive_data` wired to the endpoint: the batch and the current model are sent to
      `Predict` and its answer is stored. */
  function ReceiveLive(s: State, b: Batch, up: bool, files: set<Path>, scale: Scaler, classify: Classifier): State {
    ReceiveData(s, b, Call(up, Predict(PredictRequestFor(s.modelInfo, b), files, scale, classify)))
  }

  /** A batch whose length differs from the chosen window size is stored with `Error`:
      the endpoint answers 404 or 400, or cannot be reached. */
  lemma MismatchStoresError(s: State, b: Batch, up: bool, files: set<Path>, scale: Scaler, classify: Classifier)
    requires |b.angle| != s.modelInfo.windowSize || |b.torque| != s.modelInfo.windowSize
    ensures ReceiveLive(s, b, up, files, scale, classify).data.prediction == "Error"
  {
    var req := PredictRequestFor(s.modelInfo, b);
    assert !LengthsMatch(req);
    PredictSucceeds(req, files, scale, classify);
  }

  /** A missing artifact is stored as `Error` as well. */
  lemma MissingArtifactStoresError(s: State, b: Batch, up: bool, files: set<Path>, scale: Scaler, classify: Classifier)
    requires ModelPath(s.modelInfo.modelFolder, s.modelInfo.modelName) !in files
             || ScalerPath(s.modelInfo.modelFolder, s.modelInfo.windowSize) !in files
    ensures ReceiveLive(s, b, up, files, scale, classify).data.prediction == "Error"
  {
    PredictSucceeds(PredictRequestFor(s.modelInfo, b), files, scale, classify);
  }

  /** With the endpoint up, both artifacts present and a batch of the window size, the
      stored prediction is the verdict on this batch, `OK` or `NOT OK`. */
  lemma GoodBatchStoresVerdict(s: State, b: Batch, files: set<Path>, scale: Scaler, classify: Classifier)
    requires ModelPath(s.modelInfo.modelFolder, s.modelInfo.modelName) in files
    requires ScalerPath(s.modelInfo.modelFolder, s.modelInfo.windowSize) in files
    requires |b.angle| == s.modelInfo.windowSize && |b.torque| == s.modelInfo.windowSize
    ensures var p := ReceiveLive(s, b, true, files, scale, classify).data.prediction;
            && (p == "OK" || p == "NOT OK")
            && p == Verdict(classify(ModelPath(s.modelInfo.modelFolder, s.modelInfo.modelName),
                                     scale(ScalerPath(s.modelInfo.modelFolder, s.modelInfo.windowSize),
                                           b.angle + b.torque)))
  {
    PredictSucceeds(PredictRequestFor(s.modelInfo, b), files, scale, classify);
  }

  /** The stored prediction depends on the batch and the model only: samples accumulated
      earlier in the cycle are never sent. */
  lemma PredictionIgnoresHistory(s1: State, s2: State, b: Batch, up: bool, files: set<Path>, scale: Scaler, classify: Classifier)
    requires s1.modelInfo == s2.modelInfo
    ensures ReceiveLive(s1, b, up, files, scale, classify).data.prediction ==
            ReceiveLive(s2, b, up, files, scale, classify).data.prediction
  {
  }

  /** A sequence of batches with the outcome each one met, applied in order. */
  function Replay(s: State, bs: seq<Batch>, os: seq<RemoteOutcome>): (t: State)
    requires |bs| == |os|
    ensures t.modelInfo == s.modelInfo
    decreases |bs|
  {
    if bs == [] then s else Replay(ReceiveData(s, bs[0], os[0]), bs[1..], os[1..])
  }

  /** The angle samples of a list of batches, concatenated in order. */
  function AngleOf(bs: seq<Batch>): seq<real> {
    if bs == [] then [] else bs[0].angle + AngleOf(bs[1..])
  }

  /** The torque samples of a list of batches, concatenated in order. */
  function TorqueOf(bs: seq<Batch>): seq<real> {
    if bs == [] then [] else bs[0].torque + TorqueOf(bs[1..])
  }

  predicate NoReset(bs: seq<Batch>) {
    forall k :: 0 <= k < |bs| ==> !bs[k].reset
  }

  /** Batches without a reset extend the stored lists by all their samples, in order. */
  lemma {:induction false} ReplayAppends(s: State, bs: seq<Batch>, os: seq<RemoteOutcome>)
    requires |bs| == |os| && NoReset(bs)
    ensures Replay(s, bs, os).data.angle == s.data.angle + AngleOf(bs)
    ensures Replay(s, bs, os).data.torque == s.data.torque + TorqueOf(bs)
    decreases |bs|
  {
    if bs != [] {
      var t := ReceiveData(s, bs[0], os[0]);
      assert NoReset(bs[1..]) by {
        forall k | 0 <= k < |bs[1..]| ensures !bs[1..][k].reset {
          assert bs[1..][k] == bs[k + 1];
        }
      }
      ReplayAppends(t, bs[1..], os[1..]);
      assert s.data.angle + bs[0].angle + AngleOf(bs[1..]) == s.data.angle + (bs[0].angle + AngleOf(bs[1..]));
      assert s.data.torque + bs[0].torque + TorqueOf(bs[1..]) == s.data.torque + (bs[0].torque + TorqueOf(bs[1..]));
    }
  }

  /** What `get_data` reports after a reset batch and batches without one: exactly the
      samples of the cycle the reset started, nothing from before it. */
  lemma ResetStartsCycle(s: State, b: Batch, bs: seq<Batch>, o: RemoteOutcome, os: seq<RemoteOutcome>)
    requires b.reset && |bs| == |os| && NoReset(bs)
    ensures GetData(Replay(s, [b] + bs, [o] + os)).angle == AngleOf([b] + bs)
    ensures GetData(Replay(s, [b] + bs, [o] + os)).torque == TorqueOf([b] + bs)
  {
    assert ([b] + bs)[1..] == bs && ([o] + os)[1..] == os;
    ReplayAppends(ReceiveData(s, b, o), bs, os);
  }

  /** The stored prediction is the one the last batch met. */
  lemma {:induction false} LastOutcomeWins(s: State, bs: seq<Batch>, os: seq<RemoteOutcome>)
    requires |bs| == |os| > 0
    ensures Replay(s, bs, os).data.prediction == StoredPrediction(os[|os| - 1])
    ensures Replay(s, bs, os).data.identifier == bs[|bs| - 1].identifier
    ensures Replay(s, bs, os).data.reset == bs[|bs| - 1].reset
    decreases |bs|
  {
    if |bs| > 1 {
      LastOutcomeWins(ReceiveData(s, bs[0], os[0]), bs[1..], os[1..]);
    }
  }

  /** A reset batch for cycle `car42` on top of an older cycle: the lists are exactly the
      batch's, the identifier is `car42`, the flag stays set, and the model is kept. */
  lemma ResetScenario()
    ensures var s := State(Data([1.0, 2.0], [3.0, 4.0], "OK", false, "car41", "d1"), ModelInfo("f", "ensemble_2", 2));
            var t := ReceiveData(s, Batch([5.0, 6.0], [7.0, 8.0], true, "car42", "d2"), Reply(200, "NOT OK"));
            t == State(Data([5.0, 6.0], [7.0, 8.0], "NOT OK", true, "car42", "d2"), ModelInfo("f", "ensemble_2", 2))
  {
  }

  /** Before any model is chosen, a batch with samples in either list cannot be
      predicted: the stored prediction is `Error`. */
  lemma NoModelYet(b: Batch, up: bool, files: set<Path>, scale: Scaler, classify: Classifier)
    requires |b.angle| > 0 || |b.torque| > 0
    ensures ReceiveLive(Initial, b, up, files, scale, classify).data.prediction == "Error"
  {
    MismatchStoresError(Initial, b, up, files, scale, classify);
  }
}

=== FILE: rename_folders.dfy ===
/** The one-off maintenance script that normalises station folder names: every
    directory in the base directory is renamed with its spaces replaced by underscores. */
module RenameFolders {
  import opened Text

  /** `folder_name.replace(" ", "_")` */
  function NewName(name: string): string {
    ReplaceChar(name, ' ', '_')
  }

  /** The new name has no space, keeps the length, turns each space into `_` and keeps
      every other character in place. */
  lemma NewNameShape(name: string)
    ensures ' ' !in NewName(name)
    ensures |NewName(name)| == |name|
    ensures forall i :: 0 <= i < |name| ==> NewName(name)[i] == (if name[i] == ' ' then '_' else name[i])
  {
    ReplaceRemoves(name, ' ', '_');
  }

  /** Renaming an already renamed folder changes nothing, and a name without spaces is
      kept as it is. */
  lemma NewNameIdempotent(name: string)
    ensures NewName(NewName(name)) == NewName(name)
    ensures ' ' !in name ==> NewName(name) == name
  {
    ReplaceIdempotent(name, ' ', '_');
    if ' ' !in name {
      ReplaceAbsent(name, ' ', '_');
    }
  }

  /** Two different folders can be given the same name: `a b` and `a_b` both become
      `a_b`. */
  lemma NotInjective()
    ensures "a b" != "a_b"
    ensures NewName("a b") == NewName("a_b") == "a_b"
  {
    NewNameShape("a b");
    NewNameShape("a_b");
    assert NewName("a b")[1] == '_';
    assert NewName("a_b")[1] == '_';
  }

  /** An entry of the base directory's listing. */
  datatype Entry = Entry(name: string, isDir: bool)

  /** One `os.rename(old, new)` call, by the names inside the base directory. */
  datatype Rename = Rename(from: string, to: string)

  /** The renames the loop issues, in listing order: one per directory, none for files. */
  function RenamePlan(listing: seq<Entry>): (plan: seq<Rename>)
    ensures |plan| <= |listing|
    ensures forall k :: 0 <= k < |plan| ==> plan[k].to == NewName(plan[k].from) && ' ' !in plan[k].to
    decreases |listing|
  {
    if listing == [] then []
    else
      var rest := RenamePlan(listing[1..]);
      if listing[0].isDir then
        NewNameShape(listing[0].name);
        [Rename(listing[0].name, NewName(listing[0].name))] + rest
      else rest
  }

  /** The directories of a listing, in order. */
  function Dirs(listing: seq<Entry>): seq<string> {
    if listing == [] then []
    else (if listing[0].isDir then [listing[0].name] else []) + Dirs(listing[1..])
  }

  /** The folders a plan renames, in order. */
  function Sources(plan: seq<Rename>): seq<string> {
    if plan == [] then [] else [plan[0].from] + Sources(plan[1..])
  }

  /** Exactly the directories are renamed, each once, in listing order. */
  lemma {:induction false} PlanCoversDirs(listing: seq<Entry>)
    ensures Sources(RenamePlan(listing)) == Dirs(listing)
    decreases |listing|
  {
    if listing != [] {
      PlanCoversDirs(listing[1..]);
      var rest := RenamePlan(listing[1..]);
      if listing[0].isDir {
        var r := Rename(listing[0].name, NewName(listing[0].name));
        assert ([r] + rest)[1..] == rest;
      }
    }
  }
}

=== FILE: segmenter.dfy ===
/** The training-time row builder (`prepare_data`): a cleaned, transposed sheet is a
    sequence of columns taken in pairs (angle, torque); row 0 of the angle column is the
    cycle's label, the remaining rows are samples. Each pair is cut into non-overlapping
    windows, and each window becomes one feature row: the angle slice followed by the
    torque slice. Sample values are never inspected, so they are a type parameter. */
module Segmenter {

  /** One cell after numeric coercion: a value, or NaN. */
  datatype Cell<V> = Missing | Value(v: V)

  /** A column of the transposed sheet. */
  type Column<V> = seq<Cell<V>>

  /** The pair `(X, y)`: feature rows and their labels. */
  datatype Dataset<V> = Dataset(x: seq<seq<V>>, y: seq<Cell<V>>)

  function Min(a: nat, b: nat): nat {
    if a <= b then a else b
  }

  /** `np.vstack` / `np.hstack` of two datasets. */
  function Append<V>(a: Dataset<V>, b: Dataset<V>): Dataset<V> {
    Dataset(a.x + b.x, a.y + b.y)
  }

  function Empty<V>(): Dataset<V> {
    Dataset([], [])
  }

  /** `dropna()`: the present values of a column, in their original order. */
  function DropMissing<V(==)>(c: seq<Cell<V>>): (r: seq<V>)
    ensures |r| <= |c|
    ensures (forall i :: 0 <= i < |c| ==> c[i].Value?) ==>
              |r| == |c| && forall i :: 0 <= i < |c| ==> r[i] == c[i].v
  {
    if c == [] then []
    else (if c[0].Missing? then [] else [c[0].v]) + DropMissing(c[1..])
  }

  /** Dropping is done cell by cell: a missing cell vanishes without disturbing the
      order of what surrounds it. */
  lemma {:induction false} DropMissingAppend<V>(a: seq<Cell<V>>, b: seq<Cell<V>>)
    ensures DropMissing(a + b) == DropMissing(a) + DropMissing(b)
  {
    if a != [] {
      assert (a + b)[0] == a[0];
      assert (a + b)[1..] == a[1..] + b;
      DropMissingAppend(a[1..], b);
    } else {
      assert a + b == b;
    }
  }

  /** `df.iloc[1:, i].dropna()`: the samples of a column, row 0 excluded. */
  function Samples<V(==)>(c: Column<V>): seq<V> {
    if |c| == 0 then [] else DropMissing(c[1..])
  }

  /** How many windows a pair yields: ⌊m / w⌋ under the strict guard `m > w`. */
  function WindowCount(m: nat, w: nat): nat
    requires 0 < w
  {
    if m > w then m / w else 0
  }

  /** Euclidean division is unique: a quotient and remainder that rebuild `x` are `x / w`. */
  lemma DivUnique(x: int, w: int, q: int, r: int)
    requires 0 < w && 0 <= r < w && x == q * w + r
    ensures x / w == q
  {
    MulDiffSmall(q - x / w, w, x % w - r);
  }

  lemma MulDiffSmall(d: int, w: int, e: int)
    requires 0 < w && -w < e < w && d * w == e
    ensures d == 0
  {
    if d >= 1 {
      MulAtLeast(d, w);
    } else if d <= -1 {
      MulAtLeast(-d, w);
    }
  }

  lemma {:induction false} MulAtLeast(d: int, w: int)
    requires d >= 1 && w > 0
    ensures d * w >= w
  {
    if d > 1 {
      MulAtLeast(d - 1, w);
      assert d * w == (d - 1) * w + w;
    }
  }

  /** The rows the inner loop emits from offset `j` on, for `min_len == m`: one row per
      offset `j, j + w, ...` for as long as a whole window fits before `m`. */
  function Tiles<V>(angle: seq<V>, torque: seq<V>, w: nat, j: nat, m: nat): (rows: seq<seq<V>>)
    requires 0 < w && j <= m <= |angle| && m <= |torque|
    ensures j + |rows| * w <= m < j + |rows| * w + w
    decreases m - j
  {
    if j + w <= m then
      var rest := Tiles(angle, torque, w, j + w, m);
      var rows := [angle[j..j + w] + torque[j..j + w]] + rest;
      assert (j + w) + |rest| * w == j + |rows| * w;
      rows
    else []
  }

  /** Row `k` of the tiling starts at offset `j + k * w`: the angle slice there, then the
      torque slice at the same offset. */
  lemma {:induction false} TileAt<V>(angle: seq<V>, torque: seq<V>, w: nat, j: nat, m: nat, k: nat)
    requires 0 < w && j <= m <= |angle| && m <= |torque|
    requires k < |Tiles(angle, torque, w, j, m)|
    ensures j + k * w + w <= m
    ensures Tiles(angle, torque, w, j, m)[k] ==
              angle[j + k * w .. j + k * w + w] + torque[j + k * w .. j + k * w + w]
    decreases k
  {
    if k > 0 {
      TileAt(angle, torque, w, j + w, m, k - 1);
      assert k * w == (k - 1) * w + w;
    }
  }

  /** The windows of one angle/torque pair: both sequences are cut to the shorter length,
      offsets are 0, w, 2w, ..., each row is the angle slice then the torque slice (not
      interleaved), the trailing remainder shorter than `w` is dropped, and no window at
      all is produced unless the shorter length exceeds `w`. */
  function PairWindows<V>(angle: seq<V>, torque: seq<V>, w: nat): (rows: seq<seq<V>>)
    requires 0 < w
    ensures |rows| == WindowCount(Min(|angle|, |torque|), w)
    ensures forall k :: 0 <= k < |rows| ==>
              && k * w + w <= Min(|angle|, |torque|)
              && |rows[k]| == 2 * w
              && rows[k][..w] == angle[k * w .. k * w + w]
              && rows[k][w..] == torque[k * w .. k * w + w]
    ensures Min(|angle|, |torque|) > w ==>
              |rows| * w <= Min(|angle|, |torque|) < |rows| * w + w
  {
    var m := Min(|angle|, |torque|);
    if m > w then
      var rows := Tiles(angle, torque, w, 0, m);
      DivUnique(m, w, |rows|, m - |rows| * w);
      forall k | 0 <= k < |rows|
        ensures k * w + w <= m
        ensures |rows[k]| == 2 * w
        ensures rows[k][..w] == angle[k * w .. k * w + w]
        ensures rows[k][w..] == torque[k * w .. k * w + w]
      {
        TileAt(angle, torque, w, 0, m, k);
      }
      rows
    else []
  }

  /** The dataset of one column pair: every window carries the label in row 0 of the
      angle column, and there are as many labels as rows. */
  function PairDataset<V(==)>(a: Column<V>, t: Column<V>, w: nat): (d: Dataset<V>)
    requires 0 < w && |a| > 0
    ensures |d.x| == |d.y| == WindowCount(Min(|Samples(a)|, |Samples(t)|), w)
    ensures forall k :: 0 <= k < |d.y| ==> d.y[k] == a[0]
    ensures forall k :: 0 <= k < |d.x| ==> |d.x[k]| == 2 * w
  {
    var rows := PairWindows(Samples(a), Samples(t), w);
    Dataset(rows, seq(|rows|, _ => a[0]))
  }

  /** `df.iloc[0, i]` is read for every angle column that has a torque partner. */
  predicate LabelRowsPresent<V>(cols: seq<Column<V>>) {
    |cols| < 2 || (|cols[0]| > 0 && LabelRowsPresent(cols[2..]))
  }

  /** `prepare_data(df, window_size)`: the pairs (0, 1), (2, 3), ... in order; the loop
      stops when no partner column is left, so a trailing unpaired column is ignored. */
  function PrepareData<V(==)>(cols: seq<Column<V>>, w: nat): (d: Dataset<V>)
    requires 0 < w && LabelRowsPresent(cols)
    ensures |d.x| == |d.y|
    ensures forall k :: 0 <= k < |d.x| ==> |d.x[k]| == 2 * w
  {
    if |cols| < 2 then Empty()
    else Append(PairDataset(cols[0], cols[1], w), PrepareData(cols[2..], w))
  }

  /** The total number of rows: the sum of ⌊min_len / w⌋ over the pairs that pass the guard. */
  function TotalWindows<V(==)>(cols: seq<Column<V>>, w: nat): nat
    requires 0 < w
  {
    if |cols| < 2 then 0
    else WindowCount(Min(|Samples(cols[0])|, |Samples(cols[1])|), w) + TotalWindows(cols[2..], w)
  }

  lemma {:induction false} RowCount<V>(cols: seq<Column<V>>, w: nat)
    requires 0 < w && LabelRowsPresent(cols)
    ensures |PrepareData(cols, w).x| == TotalWindows(cols, w)
  {
    if |cols| >= 2 {
      RowCount(cols[2..], w);
    }
  }

  /** A trailing column without a partner contributes nothing. */
  lemma {:induction false} TrailingColumnIgnored<V>(cols: seq<Column<V>>, c: Column<V>, w: nat)
    requires 0 < w && LabelRowsPresent(cols) && |cols| % 2 == 0
    ensures LabelRowsPresent(cols + [c])
    ensures PrepareData(cols + [c], w) == PrepareData(cols, w)
  {
    if |cols| >= 2 {
      var cols' := cols + [c];
      assert cols'[2..] == cols[2..] + [c];
      assert cols'[0] == cols[0] && cols'[1] == cols[1];
      TrailingColumnIgnored(cols[2..], c, w);
    } else {
      assert |cols| == 0;
      assert cols + [c] == [c];
    }
  }

  /** Row 0 of the angle column is the label only: changing it changes the labels and
      never a feature row. */
  lemma LabelIsNeverASample<V>(a: Column<V>, t: Column<V>, w: nat, tag: Cell<V>)
    requires 0 < w && |a| > 0
    ensures PairDataset([tag] + a[1..], t, w).x == PairDataset(a, t, w).x
    ensures forall k :: 0 <= k < |PairDataset([tag] + a[1..], t, w).y| ==>
              PairDataset([tag] + a[1..], t, w).y[k] == tag
  {
    assert ([tag] + a[1..])[1..] == a[1..];
  }

  /** Row 0 of the torque column is never read at all. */
  lemma TorqueHeaderIgnored<V>(a: Column<V>, t: Column<V>, w: nat, header: Cell<V>)
    requires 0 < w && |a| > 0 && |t| > 0
    ensures PairDataset(a, [header] + t[1..], w) == PairDataset(a, t, w)
  {
    assert ([header] + t[1..])[1..] == t[1..];
  }

  /** The inner loop of `prepare_data`: `for j in range(0, min_len - w + 1, w)` under
      the guard `min_len > w`, appending one row per offset. */
  method WindowLoop<V>(angle: seq<V>, torque: seq<V>, w: nat) returns (rows: seq<seq<V>>)
    requires 0 < w
    ensures rows == PairWindows(angle, torque, w)
  {
    rows := [];
    var m := Min(|angle|, |torque|);
    if m > w {
      var j := 0;
      while j < m - w + 1
        invariant j <= m
        invariant rows + Tiles(angle, torque, w, j, m) == Tiles(angle, torque, w, 0, m)
        decreases m - j
      {
        rows := rows + [angle[j..j + w] + torque[j..j + w]];
        j := j + w;
      }
    }
  }

  /** The outer loop of `prepare_data` over column pairs, as written. */
  method PrepareDataLoop<V(==)>(cols: seq<Column<V>>, w: nat) returns (x: seq<seq<V>>, y: seq<Cell<V>>)
    requires 0 < w && LabelRowsPresent(cols)
    ensures Dataset(x, y) == PrepareData(cols, w)
  {
    x, y := [], [];
    var i := 0;
    LoopEntry(cols, w);
    while i < |cols|
      invariant i <= |cols| && LabelRowsPresent(cols[i..])
      invariant Append(Dataset(x, y), PrepareData(cols[i..], w)) == PrepareData(cols, w)
      decreases |cols| - i
    {
      if i + 1 >= |cols| {
        break;
      }
      LoopStep(cols, w, i, Dataset(x, y));
      x, y := PairTurn(cols, w, i, x, y);
      i := i + 2;
    }
    LoopExit(cols, w, i, Dataset(x, y));
  }

  /** One turn of the outer loop: the rows of the pair at column `i`, labelled with the
      label row of its angle column, are appended to the dataset built so far. */
  method PairTurn<V(==)>(cols: seq<Column<V>>, w: nat, i: nat, x0: seq<seq<V>>, y0: seq<Cell<V>>)
    returns (x: seq<seq<V>>, y: seq<Cell<V>>)
    requires 0 < w && i + 1 < |cols| && |cols[i]| > 0
    ensures Dataset(x, y) == Append(Dataset(x0, y0), PairDataset(cols[i], cols[i + 1], w))
  {
    var rows := WindowLoop(Samples(cols[i]), Samples(cols[i + 1]), w);
    var tag := cols[i][0];
    x, y := x0 + rows, y0 + seq(|rows|, _ => tag);
  }

  /** Before the first turn the dataset is empty and every column is still to come. */
  lemma LoopEntry<V>(cols: seq<Column<V>>, w: nat)
    requires 0 < w && LabelRowsPresent(cols)
    ensures LabelRowsPresent(cols[0..])
    ensures Append(Dataset([], []), PrepareData(cols[0..], w)) == PrepareData(cols, w)
  {
    assert cols[0..] == cols;
    var d := PrepareData(cols, w);
    assert [] + d.x == d.x && [] + d.y == d.y;
  }

  /** When fewer than two columns are left, the dataset built so far is the whole result. */
  lemma LoopExit<V>(cols: seq<Column<V>>, w: nat, i: nat, d: Dataset<V>)
    requires 0 < w && i <= |cols| && |cols| <= i + 1 && LabelRowsPresent(cols) && LabelRowsPresent(cols[i..])
    ensures Append(d, PrepareData(cols[i..], w)) == PrepareData(cols, w) ==> d == PrepareData(cols, w)
  {
    assert |cols[i..]| < 2;
    assert d.x + [] == d.x && d.y + [] == d.y;
  }

  /** The outer loop's invariant is kept by one turn at column `i`. */
  lemma LoopStep<V>(cols: seq<Column<V>>, w: nat, i: nat, d: Dataset<V>)
    requires 0 < w && i + 1 < |cols| && LabelRowsPresent(cols) && LabelRowsPresent(cols[i..])
    ensures LabelRowsPresent(cols[i + 2..])
    ensures |cols[i]| > 0
    ensures Append(d, PrepareData(cols[i..], w)) == PrepareData(cols, w) ==>
            Append(Append(d, PairDataset(cols[i], cols[i + 1], w)), PrepareData(cols[i + 2..], w))
            == PrepareData(cols, w)
  {
    assert cols[i..][2..] == cols[i + 2..];
    assert cols[i..][0] == cols[i] && cols[i..][1] == cols[i + 1];
    PairStep(cols[i..], w, d);
  }

  /** One turn of the outer loop: appending the first pair's rows leaves the rest. */
  lemma PairStep<V>(cols: seq<Column<V>>, w: nat, d: Dataset<V>)
    requires 0 < w && LabelRowsPresent(cols) && 2 <= |cols|
    ensures Append(Append(d, Dataset(PairWindows(Samples(cols[0]), Samples(cols[1]), w),
                                     seq(|PairWindows(Samples(cols[0]), Samples(cols[1]), w)|, _ => cols[0][0]))),
                   PrepareData(cols[2..], w))
            == Append(d, PrepareData(cols, w))
  {
    AppendAssoc(d, PairDataset(cols[0], cols[1], w), PrepareData(cols[2..], w));
  }

  lemma AppendAssoc<V>(a: Dataset<V>, b: Dataset<V>, c: Dataset<V>)
    ensures Append(Append(a, b), c) == Append(a, Append(b, c))
  {
    assert (a.x + b.x) + c.x == a.x + (b.x + c.x);
    assert (a.y + b.y) + c.y == a.y + (b.y + c.y);
  }

  /** Scenario: angle [1,2,3,4], torque [5,6,7,8], w = 2 give two windows and drop nothing. */
  lemma ExactMultipleScenario()
    ensures PairWindows([1, 2, 3, 4], [5, 6, 7, 8], 2) == [[1, 2, 5, 6], [3, 4, 7, 8]]
  {
    var rows := PairWindows([1, 2, 3, 4], [5, 6, 7, 8], 2);
    assert |rows| == 2;
    assert rows[0][..2] == [1, 2] && rows[0][2..] == [5, 6];
    assert rows[0] == rows[0][..2] + rows[0][2..];
    assert rows[1][..2] == [3, 4] && rows[1][2..] == [7, 8];
    assert rows[1] == rows[1][..2] + rows[1][2..];
    assert rows == [rows[0], rows[1]];
    assert rows[0] == [1, 2, 5, 6];
    assert rows[1] == [3, 4, 7, 8];
  }

  /** Scenario: angle [1,2,3], torque [4,5,6], w = 2 give one window; the last sample is dropped. */
  lemma RemainderScenario()
    ensures PairWindows([1, 2, 3], [4, 5, 6], 2) == [[1, 2, 4, 5]]
  {
    var rows := PairWindows([1, 2, 3], [4, 5, 6], 2);
    assert |rows| == 1;
    assert rows[0] == rows[0][..2] + rows[0][2..];
    assert rows == [rows[0]];
    assert rows[0] == [1, 2, 4, 5];
  }

  /** Scenario: exactly `w` samples is not enough — the guard is strict. */
  lemma ExactWindowIsNotEnough()
    ensures PairWindows([1, 2], [3, 4], 2) == []
  {
  }

  /** Scenario: a NaN in the torque column shifts the torque samples against the angle
      samples, because each column drops its own missing cells before the cut. */
  lemma MissingTorqueCellShifts()
    ensures PairDataset([Value(0), Value(1), Value(2), Value(3)],
                        [Missing, Missing, Value(5), Value(6)], 1).x == [[1, 5], [2, 6]]
  {
    var a: Column<int> := [Value(0), Value(1), Value(2), Value(3)];
    var t: Column<int> := [Missing, Missing, Value(5), Value(6)];
    assert Samples(a) == [1, 2, 3];
    assert Samples(t) == [5, 6];
    var rows := PairWindows([1, 2, 3], [5, 6], 1);
    assert |rows| == 2;
    assert rows[0] == rows[0][..1] + rows[0][1..];
    assert rows[1] == rows[1][..1] + rows[1][1..];
    assert rows == [rows[0], rows[1]];
    assert rows[0][..1] == [1] && rows[0][1..] == [5];
    assert rows[1][..1] == [2] && rows[1][1..] == [6];
    assert rows[0] == [1, 5];
    assert rows[1] == [2, 6];
  }
}

=== FILE: storage.dfy ===
/** The persisted layout of trained artifacts: one directory per model folder under a
    fixed root, holding `ensemble_<w>.pkl` and `scaler_<w>.pkl` for each window size. */
module Storage {
  import opened Text

  /** A file-system path as the list of components handed to `os.path.join`. */
  datatype Path = Path(parts: seq<string>)

  /** The directory under which training writes and the services read artifacts. */
  const ModelsRoot: string := "C:\\Users\\luisg\\OneDrive\\Documentos\\Proyecto_Fiverr\\modelos"

  /** The model file extension. */
  const PickleExt: string := ".pkl"

  /** `os.path.join(<root>, folder, file)` */
  function InFolder(folder: string, file: string): Path {
    Path([ModelsRoot, folder, file])
  }

  /** The name training gives the ensemble of window size `w` (file name minus extension). */
  function EnsembleName(w: int): string {
    "ensemble_" + IntToString(w)
  }

  /** `f'scaler_{w}.pkl'`: the scaler file of window size `w`. */
  function ScalerFile(w: int): string {
    "scaler_" + IntToString(w) + PickleExt
  }
}

=== FILE: text.dfy ===
/** The few Python `str` operations the services rely on, over `string == seq<char>`. */
module Text {
  import opened Wrappers

  /** `s.replace(from, to)` for one-character patterns: every `from` becomes `to`,
      every other character stays where it is. */
  function ReplaceChar(s: string, from: char, to: char): (r: string)
    ensures |r| == |s|
    ensures forall i :: 0 <= i < |s| ==> r[i] == (if s[i] == from then to else s[i])
  {
    if s == [] then []
    else [if s[0] == from then to else s[0]] + ReplaceChar(s[1..], from, to)
  }

  /** Replacing a character that does not occur changes nothing. */
  lemma {:induction false} ReplaceAbsent(s: string, from: char, to: char)
    requires from !in s
    ensures ReplaceChar(s, from, to) == s
  {
    if s != [] {
      assert s[0] != from;
      ReplaceAbsent(s[1..], from, to);
    }
  }

  /** After the replacement the old character is gone (unless it is its own replacement). */
  lemma ReplaceRemoves(s: string, from: char, to: char)
    requires from != to
    ensures from !in ReplaceChar(s, from, to)
  {
    var r := ReplaceChar(s, from, to);
    forall i | 0 <= i < |r|
      ensures r[i] != from
    {
    }
  }

  /** Replacing twice is replacing once. */
  lemma ReplaceIdempotent(s: string, from: char, to: char)
    ensures ReplaceChar(ReplaceChar(s, from, to), from, to) == ReplaceChar(s, from, to)
  {
    if from != to {
      ReplaceRemoves(s, from, to);
    }
    ReplaceAbsentOrSame(ReplaceChar(s, from, to), from, to);
  }

  lemma ReplaceAbsentOrSame(s: string, from: char, to: char)
    requires from == to || from !in s
    ensures ReplaceChar(s, from, to) == s
  {
    if from != to {
      ReplaceAbsent(s, from, to);
    }
  }

  /** `s.startswith(p)` */
  predicate StartsWith(s: string, p: string) {
    |p| <= |s| && s[..|p|] == p
  }

  /** `s.endswith(p)` */
  predicate EndsWith(s: string, p: string) {
    |p| <= |s| && s[|s| - |p|..] == p
  }

  /** `sep.join(parts)` for a one-character separator. */
  function Join(parts: seq<string>, sep: char): string
    requires |parts| >= 1
  {
    if |parts| == 1 then parts[0] else parts[0] + [sep] + Join(parts[1..], sep)
  }

  /** `s.split(sep)` for a one-character separator: never empty, no piece holds the
      separator, and a string without the separator is its own only piece. */
  function Split(s: string, sep: char): (parts: seq<string>)
    ensures |parts| >= 1
    ensures forall i :: 0 <= i < |parts| ==> sep !in parts[i]
    ensures sep !in s ==> parts == [s]
  {
    if s == [] then [[]]
    else
      var rest := Split(s[1..], sep);
      if s[0] == sep then [[]] + rest
      else
        assert sep !in s ==> rest == [s[1..]] && [s[0]] + s[1..] == s;
        [[s[0]] + rest[0]] + rest[1..]
  }

  /** Joining the pieces back gives the string, and a separator makes two pieces at least. */
  lemma {:induction false} SplitJoin(s: string, sep: char)
    ensures Join(Split(s, sep), sep) == s
    ensures sep in s ==> |Split(s, sep)| >= 2
  {
    if s != [] {
      SplitJoin(s[1..], sep);
      var rest := Split(s[1..], sep);
      if s[0] == sep {
        assert Join([[]] + rest, sep) == [] + [sep] + Join(rest, sep);
      } else {
        var parts := [[s[0]] + rest[0]] + rest[1..];
        assert parts[1..] == rest[1..];
        assert Join(parts, sep) == [s[0]] + Join(rest, sep);
        assert sep in s ==> sep in s[1..];
      }
    }
  }

  /** `(p + sep + q).split(sep)[0] == p` when `p` holds no separator. */
  lemma {:induction false} FirstPiece(p: string, sep: char, q: string)
    requires sep !in p
    ensures Split(p + [sep] + q, sep)[0] == p
  {
    var s := p + [sep] + q;
    if p != [] {
      assert s[1..] == p[1..] + [sep] + q;
      FirstPiece(p[1..], sep, q);
    }
  }

  /** `(p + sep + q).split(sep)[-1] == q` when `q` holds no separator. */
  lemma {:induction false} LastPiece(p: string, sep: char, q: string)
    requires sep !in q
    ensures Split(p + [sep] + q, sep)[|Split(p + [sep] + q, sep)| - 1] == q
  {
    var s := p + [sep] + q;
    if p == [] {
      assert s[1..] == q;
    } else {
      assert s[1..] == p[1..] + [sep] + q;
      assert sep in s[1..];
      SplitJoin(s[1..], sep);
      LastPiece(p[1..], sep, q);
    }
  }

  predicate IsDigit(c: char) {
    '0' <= c <= '9'
  }

  function DigitChar(d: nat): char
    requires d < 10
  {
    ['0', '1', '2', '3', '4', '5', '6', '7', '8', '9'][d]
  }

  function DigitValue(c: char): nat
    requires IsDigit(c)
  {
    (c as int - '0' as int) as nat
  }

  /** `str(n)` for a natural number: its decimal digits, most significant first. */
  function NatToString(n: nat): (r: string)
    ensures |r| >= 1
    ensures forall i :: 0 <= i < |r| ==> IsDigit(r[i])
  {
    if n < 10 then [DigitChar(n)] else NatToString(n / 10) + [DigitChar(n % 10)]
  }

  /** `str(i)` for a Python `int`: a minus sign for negative values. */
  function IntToString(i: int): (r: string)
    ensures |r| >= 1
    ensures '_' !in r && '.' !in r && ' ' !in r
  {
    if i < 0 then "-" + NatToString(-i) else NatToString(i)
  }

  /** A decimal literal as Python's `int()` accepts it: digits, with single underscores
      allowed between two digits. */
  predicate DecimalLiteral(d: string) {
    && |d| > 0
    && IsDigit(d[0])
    && IsDigit(d[|d| - 1])
    && (forall i :: 0 <= i < |d| ==> IsDigit(d[i]) || d[i] == '_')
    && NoDoubleUnderscore(d)
  }

  /** No two underscores stand next to each other. */
  predicate NoDoubleUnderscore(d: string) {
    |d| < 2 || (!(d[0] == '_' && d[1] == '_') && NoDoubleUnderscore(d[1..]))
  }

  /** A string of digits has no underscore at all. */
  lemma {:induction false} DigitsHaveNoUnderscore(d: string)
    requires forall i :: 0 <= i < |d| ==> IsDigit(d[i])
    ensures NoDoubleUnderscore(d)
  {
    if |d| >= 2 {
      assert IsDigit(d[0]);
      DigitsHaveNoUnderscore(d[1..]);
    }
  }

  /** The value of a string of digits and underscores; underscores carry no value. */
  function LiteralValue(d: string): nat
    requires forall i :: 0 <= i < |d| ==> IsDigit(d[i]) || d[i] == '_'
  {
    if d == [] then 0
    else
      var last := d[|d| - 1];
      var front := LiteralValue(d[..|d| - 1]);
      if last == '_' then front else front * 10 + DigitValue(last)
  }

  /** The ASCII characters Python's `int()` strips around a literal: space, `\t`, `\n`,
      `\v`, `\f` and `\r`. The separators U+001C to U+001F satisfy `str.isspace()` but
      are not stripped. */
  predicate IsSpace(c: char) {
    c == ' ' || c == '\t' || c == '\n' || c == '\r' || c == '\U{0B}' || c == '\U{0C}'
  }

  /** `s.lstrip()`. */
  function TrimLeft(s: string): string {
    if s != [] && IsSpace(s[0]) then TrimLeft(s[1..]) else s
  }

  /** `s.rstrip()`. */
  function TrimRight(s: string): string {
    if s != [] && IsSpace(s[|s| - 1]) then TrimRight(s[..|s| - 1]) else s
  }

  /** Stripping on the left leaves a suffix that does not start with white space. */
  lemma {:induction false} TrimLeftSuffix(s: string)
    ensures TrimLeft(s) == [] || !IsSpace(TrimLeft(s)[0])
    ensures |TrimLeft(s)| <= |s| && TrimLeft(s) == s[|s| - |TrimLeft(s)|..]
  {
    if s != [] && IsSpace(s[0]) {
      TrimLeftSuffix(s[1..]);
      assert s[1..][|s[1..]| - |TrimLeft(s)|..] == s[|s| - |TrimLeft(s)|..];
    }
  }

  /** Stripping on the right leaves a prefix that does not end with white space. */
  lemma {:induction false} TrimRightPrefix(s: string)
    ensures TrimRight(s) == [] || !IsSpace(TrimRight(s)[|TrimRight(s)| - 1])
    ensures |TrimRight(s)| <= |s| && TrimRight(s) == s[..|TrimRight(s)|]
  {
    if s != [] && IsSpace(s[|s| - 1]) {
      TrimRightPrefix(s[..|s| - 1]);
      assert s[..|s| - 1][..|TrimRight(s)|] == s[..|TrimRight(s)|];
    }
  }

  /** Python's `int(s)` on a string: surrounding white space is ignored, an optional
      sign leads a decimal literal; anything else raises `ValueError`, here `None`. */
  function ParseInt(s: string): Option<int> {
    ParseTrimmed(TrimRight(TrimLeft(s)))
  }

  /** `int()` once the surrounding white space is gone: an optional sign, then a literal. */
  function ParseTrimmed(t: string): Option<int> {
    if |t| > 0 && (t[0] == '-' || t[0] == '+') then
      var d := t[1..];
      if DecimalLiteral(d) then Some(if t[0] == '-' then -(LiteralValue(d) as int) else LiteralValue(d))
      else None
    else if DecimalLiteral(t) then Some(LiteralValue(t))
    else None
  }

  /** The digits `str` writes form a literal `int()` reads back to the same number. */
  lemma {:induction false} NatLiteralRoundTrip(n: nat)
    ensures DecimalLiteral(NatToString(n))
    ensures LiteralValue(NatToString(n)) == n
  {
    var r := NatToString(n);
    DigitsHaveNoUnderscore(r);
    if n >= 10 {
      NatLiteralRoundTrip(n / 10);
      assert r[..|r| - 1] == NatToString(n / 10);
      assert DigitValue(DigitChar(n % 10)) == n % 10;
    } else {
      assert DigitValue(DigitChar(n)) == n;
    }
  }

  /** `int(str(i)) == i` for every Python `int`. */
  lemma IntRoundTrip(i: int)
    ensures ParseInt(IntToString(i)) == Some(i)
  {
    if i < 0 {
      NegativeRoundTrip(i);
    } else {
      NatRoundTrip(i);
    }
  }

  lemma NatRoundTrip(n: nat)
    ensures ParseInt(NatToString(n)) == Some(n)
  {
    var s := NatToString(n);
    NatLiteralRoundTrip(n);
    ParseLiteral(s);
  }

  lemma NegativeRoundTrip(i: int)
    requires i < 0
    ensures ParseInt(IntToString(i)) == Some(i)
  {
    var n: nat := -i;
    var s := IntToString(i);
    assert s == "-" + NatToString(n);
    NatLiteralRoundTrip(n);
    SignedRoundTrip(s, NatToString(n), i);
  }

  /** A minus sign before a literal of value `-i` parses back to `i`. */
  lemma SignedRoundTrip(s: string, d: string, i: int)
    requires s == "-" + d && DecimalLiteral(d) && LiteralValue(d) == -i
    ensures ParseInt(s) == Some(i)
  {
    ParseNegativeLiteral(s, d);
  }

  /** Trimming leaves a string that starts and ends with a non-space as it is. */
  lemma TrimNothing(s: string)
    requires |s| > 0 && !IsSpace(s[0]) && !IsSpace(s[|s| - 1])
    ensures TrimRight(TrimLeft(s)) == s
  {
  }

  /** A literal reads as its value. */
  lemma ParseLiteral(d: string)
    requires DecimalLiteral(d)
    ensures ParseInt(d) == Some(LiteralValue(d) as int)
  {
    TrimNothing(d);
    assert ParseInt(d) == ParseTrimmed(d);
  }

  /** A literal after a minus sign reads as its negated value. */
  lemma ParseNegativeLiteral(s: string, d: string)
    requires DecimalLiteral(d) && s == "-" + d
    ensures ParseInt(s) == Some(-(LiteralValue(d) as int))
  {
    assert s[0] == '-' && s[1..] == d && s[|s| - 1] == d[|d| - 1];
    assert TrimRight(TrimLeft(s)) == s by {
      TrimNothing(s);
    }
    assert ParseTrimmed(s) == Some(-(LiteralValue(d) as int));
  }

  /** `int()` refuses a string led by a character it neither strips nor reads as a sign
      or a digit, such as the separators U+001C to U+001F. */
  lemma LeadingJunkRefused(c: char, d: string)
    requires !IsSpace(c) && !IsDigit(c) && c != '-' && c != '+'
    ensures ParseInt([c] + d) == None
  {
    var s := [c] + d;
    assert TrimLeft(s) == s;
    TrimRightPrefix(s);
    var t := TrimRight(s);
    if |t| > 0 {
      assert t[0] == c;
    }
  }

  /** `int()` refuses a string without a single digit (an empty name, a word). */
  lemma ParseNeedsDigit(s: string)
    requires forall k :: 0 <= k < |s| ==> !IsDigit(s[k])
    ensures ParseInt(s) == None
  {
    var t := TrimRight(TrimLeft(s));
    TrimLeftSuffix(s);
    TrimRightPrefix(TrimLeft(s));
    if |t| > 0 {
      assert TrimLeft(s)[0] == t[0];
      assert |t| > 1 ==> TrimLeft(s)[1] == t[1];
    }
  }
}

=== FILE: training.dfy ===
/** The control flow of the offline training sweep around the numerical work: for each
    model folder and window size, rows are built from every sheet of the folder, sheets
    without windows are skipped, label 2 is merged into class 1, and the unit either
    produces nothing, stops when resampling fails, or records a metric and writes
    `ensemble_<w>.pkl` and `scaler_<w>.pkl`. The split, scaler, resampler, both
    classifiers and the ROC-AUC score are outside the model: whether resampling fails and
    the score it reaches are inputs. */
module Training {
  import opened Text
  import opened Storage
  import opened Segmenter

  /** A cleaned sheet: its columns after transposition and numeric coercion. */
  type Sheet = seq<Column<real>>

  /** The window sizes the sweep trains. */
  const WindowSizes: seq<nat> := [50, 100, 500]

  /** `np.where(y == 2, 1, y)`: label 2 joins class 1, every other label (NaN included)
      is kept, in place. */
  function Binarize(ys: seq<Cell<real>>): (r: seq<Cell<real>>)
    ensures |r| == |ys|
    ensures forall k :: 0 <= k < |ys| ==>
              r[k] == (if ys[k] == Value(2.0) then Value(1.0) else ys[k])
  {
    if ys == [] then []
    else [if ys[0] == Value(2.0) then Value(1.0) else ys[0]] + Binarize(ys[1..])
  }

  /** After binarisation no label 2 is left. */
  lemma BinarizeLeavesNoTwo(ys: seq<Cell<real>>)
    ensures Value(2.0) !in Binarize(ys)
  {
    var r := Binarize(ys);
    forall k | 0 <= k < |r|
      ensures r[k] != Value(2.0)
    {
    }
  }

  /** Binarising twice is binarising once. */
  lemma {:induction false} BinarizeIdempotent(ys: seq<Cell<real>>)
    ensures Binarize(Binarize(ys)) == Binarize(ys)
  {
    if ys != [] {
      BinarizeIdempotent(ys[1..]);
      assert Binarize(ys)[1..] == Binarize(ys[1..]);
    }
  }

  /** Every sheet of a folder can be read: each paired angle column has its label row. */
  predicate SheetsReadable(sheets: seq<Sheet>) {
    sheets == [] || (LabelRowsPresent(sheets[0]) && SheetsReadable(sheets[1..]))
  }

  /** The rows of the sheets in order, every sheet included. */
  function AllRows(sheets: seq<Sheet>, w: nat): (d: Dataset<real>)
    requires 0 < w && SheetsReadable(sheets)
    ensures |d.x| == |d.y|
    ensures forall k :: 0 <= k < |d.x| ==> |d.x[k]| == 2 * w
  {
    if sheets == [] then Empty()
    else
      var first := PrepareData(sheets[0], w);
      var rest := AllRows(sheets[1..], w);
      assert forall k :: |first.x| <= k < |first.x| + |rest.x| ==>
        Append(first, rest).x[k] == rest.x[k - |first.x|];
      Append(first, rest)
  }

  /** The per-file loop: a sheet that yields no window is skipped (`continue`); the
      others are kept, in order, for stacking. Nothing is kept exactly when the folder
      as a whole has no window. */
  function UsableSheets(sheets: seq<Sheet>, w: nat): (r: seq<Dataset<real>>)
    requires 0 < w && SheetsReadable(sheets)
    ensures |r| <= |sheets|
    ensures forall k :: 0 <= k < |r| ==> |r[k].x| > 0
    ensures r == [] <==> |AllRows(sheets, w).x| == 0
  {
    if sheets == [] then []
    else
      var d := PrepareData(sheets[0], w);
      var rest := UsableSheets(sheets[1..], w);
      (if |d.x| == 0 then [] else [d]) + rest
  }

  /** `np.vstack` / `np.hstack` of the kept sheets. */
  function Stack(ds: seq<Dataset<real>>): Dataset<real> {
    if ds == [] then Empty() else Append(ds[0], Stack(ds[1..]))
  }

  /** Skipping the sheets without windows loses no row: stacking the kept sheets is
      stacking every sheet. */
  lemma {:induction false} SkippingLosesNothing(sheets: seq<Sheet>, w: nat)
    requires 0 < w && SheetsReadable(sheets)
    ensures Stack(UsableSheets(sheets, w)) == AllRows(sheets, w)
  {
    if sheets != [] {
      var d := PrepareData(sheets[0], w);
      SkippingLosesNothing(sheets[1..], w);
      var rest := UsableSheets(sheets[1..], w);
      if |d.x| == 0 {
        assert d.x == [] && d.y == [];
        assert Append(d, AllRows(sheets[1..], w)) == AllRows(sheets[1..], w);
        assert UsableSheets(sheets, w) == rest;
      } else {
        assert UsableSheets(sheets, w) == [d] + rest;
        assert ([d] + rest)[1..] == rest;
      }
    }
  }

  /** One row of the metrics table. */
  datatype Metric = Metric(model: string, rocAuc: real)

  /** How one (folder, window size) unit of work ends. */
  datatype Unit =
    | NoData
    | ResampleFailed
    | Trained(data: Dataset<real>, metric: Metric, modelFile: Path, scalerFile: Path)

  /** The metrics-table name of the ensemble of window size `w` in `folder`. */
  function ModelName(folder: string, w: int): string {
    folder + "/" + EnsembleName(w)
  }

  /** `process_folder(folder, w)`: no sheet with windows ends the unit with nothing; a
      resampling failure ends it early; otherwise the binarised stacked rows are trained
      on, a metric named `<folder>/ensemble_<w>` is produced and both artifacts are
      written under the folder. */
  function ProcessFolder(folder: string, sheets: seq<Sheet>, w: nat, resampleFails: bool, rocAuc: real): (u: Unit)
    requires 0 < w && SheetsReadable(sheets)
    ensures u.NoData? <==> |AllRows(sheets, w).x| == 0
    ensures u.ResampleFailed? <==> |AllRows(sheets, w).x| > 0 && resampleFails
    ensures u.Trained? ==>
              && u.metric == Metric(ModelName(folder, w), rocAuc)
              && u.modelFile == InFolder(folder, EnsembleName(w) + PickleExt)
              && u.scalerFile == InFolder(folder, ScalerFile(w))
              && u.data.x == AllRows(sheets, w).x
              && u.data.y == Binarize(AllRows(sheets, w).y)
  {
    var kept := UsableSheets(sheets, w);
    if kept == [] then NoData
    else if resampleFails then ResampleFailed
    else
      var stacked := Stack(kept);
      SkippingLosesNothing(sheets, w);
      Trained(Dataset(stacked.x, Binarize(stacked.y)),
              Metric(ModelName(folder, w), rocAuc),
              InFolder(folder, EnsembleName(w) + PickleExt),
              InFolder(folder, ScalerFile(w)))
  }

  /** What a trained unit fits on: at least one row, every row `2 * w` wide, as many
      labels as rows, and no label 2 left. */
  lemma TrainedDataShape(folder: string, sheets: seq<Sheet>, w: nat, resampleFails: bool, rocAuc: real)
    requires 0 < w && SheetsReadable(sheets)
    requires ProcessFolder(folder, sheets, w, resampleFails, rocAuc).Trained?
    ensures var d := ProcessFolder(folder, sheets, w, resampleFails, rocAuc).data;
            && 0 < |d.x| == |d.y|
            && (forall k :: 0 <= k < |d.x| ==> |d.x[k]| == 2 * w)
            && Value(2.0) !in d.y
  {
    BinarizeLeavesNoTwo(AllRows(sheets, w).y);
  }

  /** Only a unit that completes adds a row to the metrics table. */
  function Record(metrics: seq<Metric>, u: Unit): (r: seq<Metric>)
    ensures u.Trained? ==> r == metrics + [u.metric]
    ensures !u.Trained? ==> r == metrics
  {
    if u.Trained? then metrics + [u.metric] else metrics
  }

  /** A model folder with its sheets. */
  datatype Folder = Folder(name: string, sheets: seq<Sheet>)

  /** Every folder of the sweep can be read. */
  predicate FoldersReadable(folders: seq<Folder>) {
    forall j :: 0 <= j < |folders| ==> SheetsReadable(folders[j].sheets)
  }

  /** Every window size of the sweep is a valid window. */
  predicate PositiveSizes(sizes: seq<nat>) {
    forall i :: 0 <= i < |sizes| ==> sizes[i] > 0
  }

  /** The metrics-table names one folder can contribute. */
  function FolderNames(folder: string, sizes: seq<nat>): set<string> {
    if sizes == [] then {} else {ModelName(folder, sizes[0])} + FolderNames(folder, sizes[1..])
  }

  /** The metrics-table names the whole sweep can contribute. */
  function SweepNames(folders: seq<Folder>, sizes: seq<nat>): set<string> {
    if folders == [] then {} else FolderNames(folders[0].name, sizes) + SweepNames(folders[1..], sizes)
  }

  /** One unit of the sweep, as far as the metrics table is concerned. */
  function RunUnit(f: Folder, w: nat, resampleFails: bool, rocAuc: real): (u: Unit)
    requires 0 < w && SheetsReadable(f.sheets)
    ensures u.Trained? ==> u.metric.model == ModelName(f.name, w)
  {
    ProcessFolder(f.name, f.sheets, w, resampleFails, rocAuc)
  }

  // ---------------------------------------------------------------- what a run of units records

  /** What the metrics table keeps of a run of units: the metric of each unit that
      completes, in order. */
  function Recorded(us: seq<Unit>): seq<Metric> {
    if us == [] then [] else Record([], us[0]) + Recorded(us[1..])
  }

  /** How many units of the run complete. */
  function CompletedCount(us: seq<Unit>): (n: nat)
    ensures n <= |us|
  {
    if us == [] then 0 else (if us[0].Trained? then 1 else 0) + CompletedCount(us[1..])
  }

  /** `m` is the metric of a unit of the run that completes. */
  predicate CompletedMetric(us: seq<Unit>, m: Metric) {
    exists i :: 0 <= i < |us| && us[i].Trained? && us[i].metric == m
  }

  /** One row per completed unit, every completed unit's metric present whatever failed
      around it, and no other row. */
  lemma {:induction false} RecordedContent(us: seq<Unit>)
    ensures |Recorded(us)| == CompletedCount(us)
    ensures forall i :: 0 <= i < |us| && us[i].Trained? ==> us[i].metric in Recorded(us)
    ensures forall k :: 0 <= k < |Recorded(us)| ==> CompletedMetric(us, Recorded(us)[k])
  {
    if us != [] {
      var first := Record([], us[0]);
      var rest := Recorded(us[1..]);
      var r := Recorded(us);
      assert r == first + rest;
      RecordedContent(us[1..]);
      forall i | 0 <= i < |us| && us[i].Trained?
        ensures us[i].metric in r
      {
        if i > 0 {
          assert us[1..][i - 1] == us[i];
          assert us[i].metric in rest;
        }
      }
      forall k | 0 <= k < |r|
        ensures CompletedMetric(us, r[k])
      {
        if k < |first| {
          assert us[0].Trained? && r[k] == us[0].metric;
        } else {
          assert r[k] == rest[k - |first|];
          var j :| 0 <= j < |us[1..]| && us[1..][j].Trained? && us[1..][j].metric == r[k];
          assert us[j + 1] == us[1..][j];
        }
      }
    }
  }

  /** Recording two runs one after the other is recording their concatenation. */
  lemma {:induction false} RecordedAppend(a: seq<Unit>, b: seq<Unit>)
    ensures Recorded(a + b) == Recorded(a) + Recorded(b)
  {
    if a != [] {
      assert (a + b)[1..] == a[1..] + b;
      RecordedAppend(a[1..], b);
    } else {
      assert a + b == b;
    }
  }

  // ---------------------------------------------------------------- the sweep

  /** The units of one folder, one per window size, in order. */
  function Units(f: Folder, sizes: seq<nat>,
                 resampleFails: (string, nat) -> bool, rocAuc: (string, nat) -> real): (us: seq<Unit>)
    requires SheetsReadable(f.sheets) && PositiveSizes(sizes)
    ensures |us| == |sizes|
    ensures forall i :: 0 <= i < |sizes| ==>
              us[i] == RunUnit(f, sizes[i], resampleFails(f.name, sizes[i]), rocAuc(f.name, sizes[i]))
  {
    seq(|sizes|, i requires 0 <= i < |sizes| =>
      RunUnit(f, sizes[i], resampleFails(f.name, sizes[i]), rocAuc(f.name, sizes[i])))
  }

  /** The rows one folder adds to the metrics table: its units over the window sizes,
      in order, each recorded when it completes. */
  function FolderRows(f: Folder, sizes: seq<nat>,
                      resampleFails: (string, nat) -> bool, rocAuc: (string, nat) -> real): (rows: seq<Metric>)
    requires SheetsReadable(f.sheets) && PositiveSizes(sizes)
    ensures |rows| <= |sizes|
    ensures forall k :: 0 <= k < |rows| ==> rows[k].model in FolderNames(f.name, sizes)
  {
    var us := Units(f, sizes, resampleFails, rocAuc);
    RecordedContent(us);
    RecordedNames(f, sizes, resampleFails, rocAuc);
    Recorded(us)
  }

  /** Every row a folder records is named after the folder and one of the window sizes. */
  lemma RecordedNames(f: Folder, sizes: seq<nat>,
                      resampleFails: (string, nat) -> bool, rocAuc: (string, nat) -> real)
    requires SheetsReadable(f.sheets) && PositiveSizes(sizes)
    ensures var rows := Recorded(Units(f, sizes, resampleFails, rocAuc));
            forall k :: 0 <= k < |rows| ==> rows[k].model in FolderNames(f.name, sizes)
  {
    var us := Units(f, sizes, resampleFails, rocAuc);
    var rows := Recorded(us);
    RecordedContent(us);
    forall k | 0 <= k < |rows|
      ensures rows[k].model in FolderNames(f.name, sizes)
    {
      assert CompletedMetric(us, rows[k]);
      var i :| 0 <= i < |us| && us[i].Trained? && us[i].metric == rows[k];
      InFolderNames(f.name, sizes, i);
    }
  }

  /** The name of every window size of the folder is among its names. */
  lemma {:induction false} InFolderNames(folder: string, sizes: seq<nat>, i: nat)
    requires i < |sizes|
    ensures ModelName(folder, sizes[i]) in FolderNames(folder, sizes)
    decreases i
  {
    if i > 0 {
      assert sizes[1..][i - 1] == sizes[i];
      InFolderNames(folder, sizes[1..], i - 1);
    }
  }

  /** One folder's rows are exactly what its units record: one row per window size whose
      unit completes, a completed unit's metric present even after a unit that failed,
      and no other row. */
  lemma FolderRowsContent(f: Folder, sizes: seq<nat>,
                          resampleFails: (string, nat) -> bool, rocAuc: (string, nat) -> real)
    requires SheetsReadable(f.sheets) && PositiveSizes(sizes)
    ensures var us := Units(f, sizes, resampleFails, rocAuc);
            var rows := FolderRows(f, sizes, resampleFails, rocAuc);
            && |rows| == CompletedCount(us)
            && (forall i :: 0 <= i < |us| && us[i].Trained? ==> us[i].metric in rows)
            && (forall k :: 0 <= k < |rows| ==> CompletedMetric(us, rows[k]))
  {
    RecordedContent(Units(f, sizes, resampleFails, rocAuc));
  }

  /** The metrics table the whole sweep writes: every folder, every window size, in
      order; each row names a folder of the sweep and one of the window sizes. */
  function SweepRows(folders: seq<Folder>, sizes: seq<nat>,
                     resampleFails: (string, nat) -> bool, rocAuc: (string, nat) -> real): (rows: seq<Metric>)
    requires FoldersReadable(folders) && PositiveSizes(sizes)
    ensures forall k :: 0 <= k < |rows| ==> rows[k].model in SweepNames(folders, sizes)
    decreases |folders|
  {
    if folders == [] then []
    else
      var first := FolderRows(folders[0], sizes, resampleFails, rocAuc);
      var rest := SweepRows(folders[1..], sizes, resampleFails, rocAuc);
      first + rest
  }

  /** The units of the sweep, one row per folder: row `j` is `Units(folders[j], sizes, ...)`. */
  function Grid(folders: seq<Folder>, sizes: seq<nat>,
                resampleFails: (string, nat) -> bool, rocAuc: (string, nat) -> real): (g: seq<seq<Unit>>)
    requires FoldersReadable(folders) && PositiveSizes(sizes)
    ensures |g| == |folders|
    decreases |folders|
  {
    if folders == [] then []
    else
      ReadableTail(folders);
      [Units(folders[0], sizes, resampleFails, rocAuc)] + Grid(folders[1..], sizes, resampleFails, rocAuc)
  }

  lemma ReadableTail(folders: seq<Folder>)
    requires FoldersReadable(folders) && folders != []
    ensures SheetsReadable(folders[0].sheets) && FoldersReadable(folders[1..])
  {
    forall j | 0 <= j < |folders[1..]| ensures SheetsReadable(folders[1..][j].sheets) {
      assert folders[1..][j] == folders[j + 1];
    }
  }

  /** Row `j` of the grid holds the units of folder `j`, one per window size. */
  lemma {:induction false} GridRows(folders: seq<Folder>, sizes: seq<nat>,
                                    resampleFails: (string, nat) -> bool, rocAuc: (string, nat) -> real, j: nat)
    requires FoldersReadable(folders) && PositiveSizes(sizes) && j < |folders|
    ensures SheetsReadable(folders[j].sheets)
    ensures Grid(folders, sizes, resampleFails, rocAuc)[j] == Units(folders[j], sizes, resampleFails, rocAuc)
    decreases j
  {
    ReadableTail(folders);
    if j > 0 {
      GridRows(folders[1..], sizes, resampleFails, rocAuc, j - 1);
      assert folders[1..][j - 1] == folders[j];
    }
  }

  /** The rows of a grid one after the other: the order the nested loops run in. */
  function Flatten(g: seq<seq<Unit>>): seq<Unit> {
    if g == [] then [] else g[0] + Flatten(g[1..])
  }

  /** `u` stands somewhere in the grid. */
  predicate InGrid(g: seq<seq<Unit>>, u: Unit) {
    exists j, i :: 0 <= j < |g| && 0 <= i < |g[j]| && g[j][i] == u
  }

  /** Every cell of the grid is run, and only cells of the grid are. */
  lemma {:induction false} FlattenContent(g: seq<seq<Unit>>)
    ensures forall j, i :: 0 <= j < |g| && 0 <= i < |g[j]| ==> g[j][i] in Flatten(g)
    ensures forall p :: 0 <= p < |Flatten(g)| ==> InGrid(g, Flatten(g)[p])
  {
    if g != [] {
      var f := Flatten(g);
      var rest := Flatten(g[1..]);
      assert f == g[0] + rest;
      FlattenContent(g[1..]);
      forall j, i | 0 <= j < |g| && 0 <= i < |g[j]| ensures g[j][i] in f {
        if j == 0 {
          assert f[i] == g[0][i];
        } else {
          assert g[1..][j - 1] == g[j];
          assert g[j][i] in rest;
        }
      }
      forall p | 0 <= p < |f| ensures InGrid(g, f[p]) {
        if p < |g[0]| {
          assert f[p] == g[0][p];
        } else {
          assert f[p] == rest[p - |g[0]|];
          assert InGrid(g[1..], rest[p - |g[0]|]);
          var j, i :| 0 <= j < |g[1..]| && 0 <= i < |g[1..][j]| && g[1..][j][i] == f[p];
          assert g[j + 1] == g[1..][j];
        }
      }
    }
  }

  /** `m` is the metric of a cell of the grid that completes. */
  predicate GridMetric(g: seq<seq<Unit>>, m: Metric) {
    exists j, i :: 0 <= j < |g| && 0 <= i < |g[j]| && g[j][i].Trained? && g[j][i].metric == m
  }

  /** The table of the sweep is what the units record, folder after folder. */
  lemma {:induction false} SweepRowsAreRecorded(folders: seq<Folder>, sizes: seq<nat>,
                                                resampleFails: (string, nat) -> bool, rocAuc: (string, nat) -> real)
    requires FoldersReadable(folders) && PositiveSizes(sizes)
    ensures SweepRows(folders, sizes, resampleFails, rocAuc) == Recorded(Flatten(Grid(folders, sizes, resampleFails, rocAuc)))
    decreases |folders|
  {
    if folders != [] {
      ReadableTail(folders);
      var g := Grid(folders, sizes, resampleFails, rocAuc);
      assert g[1..] == Grid(folders[1..], sizes, resampleFails, rocAuc);
      SweepRowsAreRecorded(folders[1..], sizes, resampleFails, rocAuc);
      FolderRowsIsRecorded(folders[0], sizes, resampleFails, rocAuc);
      RecordedAppend(g[0], Flatten(g[1..]));
    }
  }

  lemma FolderRowsIsRecorded(f: Folder, sizes: seq<nat>,
                             resampleFails: (string, nat) -> bool, rocAuc: (string, nat) -> real)
    requires SheetsReadable(f.sheets) && PositiveSizes(sizes)
    ensures FolderRows(f, sizes, resampleFails, rocAuc) == Recorded(Units(f, sizes, resampleFails, rocAuc))
  {
  }

  /** The metrics table of the sweep holds one row per (folder, window size) unit that
      completes, every such unit's metric even after units that failed, and no other row;
      cell `[j][i]` of the grid is the unit of folder `j` at window size `i` (`GridRows`). */
  lemma SweepRowsContent(folders: seq<Folder>, sizes: seq<nat>,
                         resampleFails: (string, nat) -> bool, rocAuc: (string, nat) -> real)
    requires FoldersReadable(folders) && PositiveSizes(sizes)
    ensures var g := Grid(folders, sizes, resampleFails, rocAuc);
            var rows := SweepRows(folders, sizes, resampleFails, rocAuc);
            && |rows| == CompletedCount(Flatten(g))
            && (forall j, i :: 0 <= j < |g| && 0 <= i < |g[j]| && g[j][i].Trained? ==> g[j][i].metric in rows)
            && (forall k :: 0 <= k < |rows| ==> GridMetric(g, rows[k]))
  {
    var g := Grid(folders, sizes, resampleFails, rocAuc);
    var rows := SweepRows(folders, sizes, resampleFails, rocAuc);
    var us := Flatten(g);
    SweepRowsAreRecorded(folders, sizes, resampleFails, rocAuc);
    RecordedContent(us);
    FlattenContent(g);
    forall j, i | 0 <= j < |g| && 0 <= i < |g[j]| && g[j][i].Trained?
      ensures g[j][i].metric in rows
    {
      var p :| 0 <= p < |us| && us[p] == g[j][i];
    }
    forall k | 0 <= k < |rows|
      ensures GridMetric(g, rows[k])
    {
      assert CompletedMetric(us, rows[k]);
      var p :| 0 <= p < |us| && us[p].Trained? && us[p].metric == rows[k];
      assert InGrid(g, us[p]);
    }
  }

  /** Each (folder, window size) unit adds at most one row. */
  lemma {:induction false} SweepBound(folders: seq<Folder>, sizes: seq<nat>,
                                      resampleFails: (string, nat) -> bool, rocAuc: (string, nat) -> real)
    requires FoldersReadable(folders) && PositiveSizes(sizes)
    ensures |SweepRows(folders, sizes, resampleFails, rocAuc)| <= |folders| * |sizes|
    decreases |folders|
  {
    if folders != [] {
      var first := FolderRows(folders[0], sizes, resampleFails, rocAuc);
      var rest := SweepRows(folders[1..], sizes, resampleFails, rocAuc);
      assert |SweepRows(folders, sizes, resampleFails, rocAuc)| == |first| + |rest|;
      SweepBound(folders[1..], sizes, resampleFails, rocAuc);
      MulPeel(|folders[1..]|, |sizes|);
      assert |folders| == |folders[1..]| + 1;
    }
  }

  /** The sweep as configured, over window sizes 50, 100 and 500: every size is a valid
      window, and each folder adds at most three rows to the metrics table. */
  lemma ConfiguredSweep(folders: seq<Folder>, resampleFails: (string, nat) -> bool, rocAuc: (string, nat) -> real)
    requires FoldersReadable(folders)
    ensures PositiveSizes(WindowSizes)
    ensures |SweepRows(folders, WindowSizes, resampleFails, rocAuc)| <= 3 * |folders|
  {
    assert WindowSizes[1..][1..][1..] == [];
    SweepBound(folders, WindowSizes, resampleFails, rocAuc);
  }

  lemma MulPeel(a: nat, b: nat)
    ensures (a + 1) * b == b + a * b
  {
  }
}

=== FILE: visualization.dfy ===
/** The dashboard: it polls the data service, merges what it gets into its own copy of
    the cycle, decides whether the operator is still being fed, and saves the plot of a
    failing cycle. Also the small string helpers behind its sidebar: which files are
    models, the window size a model name carries, and the name a saved plot gets. Time is
    an integer number of microseconds. */
module Visualization {
  import opened Wrappers
  import opened Text
  import opened Storage
  import opened PredictionService

  // ---------------------------------------------------------------- model listing

  /** A file the sidebar offers as a model: a pickle that is not a scaler. */
  predicate IsModelFile(f: string) {
    EndsWith(f, PickleExt) && !StartsWith(f, "scaler")
  }

  /** `f.split('.')[0]`: the file name up to its first dot. */
  function Stem(f: string): (r: string)
    ensures '.' !in r
    ensures StartsWith(f, r)
  {
    var parts := Split(f, '.');
    StemIsPrefix(f);
    parts[0]
  }

  lemma {:induction false} StemIsPrefix(f: string)
    ensures StartsWith(f, Split(f, '.')[0])
  {
    if f != [] {
      StemIsPrefix(f[1..]);
    }
  }

  /** `m` is the stem of some model file of the listing. */
  predicate StemOfModelFile(listing: seq<string>, m: string) {
    exists i :: 0 <= i < |listing| && IsModelFile(listing[i]) && m == Stem(listing[i])
  }

  /** `get_models(folder)` over the folder's listing, in listing order. */
  function GetModels(listing: seq<string>): (r: seq<string>)
    ensures |r| <= |listing|
    ensures forall i :: 0 <= i < |listing| && IsModelFile(listing[i]) ==> Stem(listing[i]) in r
    ensures forall k :: 0 <= k < |r| ==> StemOfModelFile(listing, r[k])
  {
    if listing == [] then []
    else
      var rest := GetModels(listing[1..]);
      var head := if IsModelFile(listing[0]) then [Stem(listing[0])] else [];
      var r := head + rest;
      forall i | 0 <= i < |listing| && IsModelFile(listing[i]) ensures Stem(listing[i]) in r {
        if i > 0 {
          assert listing[i] == listing[1..][i - 1];
        }
      }
      forall k | 0 <= k < |r| ensures StemOfModelFile(listing, r[k]) {
        if k < |head| {
          assert IsModelFile(listing[0]) && r[k] == Stem(listing[0]);
        } else {
          assert r[k] == rest[k - |head|];
          StemOfModelFileTail(listing, rest[k - |head|]);
        }
      }
      r
  }

  /** A model of the listing's tail is a model of the listing. */
  lemma StemOfModelFileTail(listing: seq<string>, m: string)
    requires |listing| > 0 && StemOfModelFile(listing[1..], m)
    ensures StemOfModelFile(listing, m)
  {
    var j :| 0 <= j < |listing[1..]| && IsModelFile(listing[1..][j]) && m == Stem(listing[1..][j]);
    assert listing[j + 1] == listing[1..][j];
  }

  /** Listing two parts of a folder one after the other lists their models one after the
      other: the sidebar keeps the listing's order, duplicates included. */
  lemma {:induction false} GetModelsAppend(a: seq<string>, b: seq<string>)
    ensures GetModels(a + b) == GetModels(a) + GetModels(b)
    decreases |a|
  {
    if a == [] {
      assert a + b == b;
    } else {
      assert (a + b)[0] == a[0] && (a + b)[1..] == a[1..] + b;
      GetModelsAppend(a[1..], b);
    }
  }

  /** A one-file listing offers that file's stem exactly when it is a model file. */
  lemma GetModelsSingle(f: string)
    ensures GetModels([f]) == if IsModelFile(f) then [Stem(f)] else []
  {
    assert [f][1..] == [];
  }

  /** The model the sidebar preselects is the stem of the first model file of the
      listing. */
  lemma {:induction false} FirstModelPreselected(listing: seq<string>, i: nat)
    requires i < |listing| && IsModelFile(listing[i])
    requires forall j :: 0 <= j < i ==> !IsModelFile(listing[j])
    ensures |GetModels(listing)| > 0 && GetModels(listing)[0] == Stem(listing[i])
    decreases i
  {
    if i > 0 {
      assert forall j :: 0 <= j < i - 1 ==> listing[1..][j] == listing[j + 1];
      FirstModelPreselected(listing[1..], i - 1);
    }
  }

  /** A file name without a dot before `.pkl` is listed under its own name. */
  lemma StemOfPickle(name: string)
    requires '.' !in name
    ensures Stem(name + PickleExt) == name
  {
    assert name + PickleExt == name + ['.'] + "pkl";
    FirstPiece(name, '.', "pkl");
  }

  /** A model file whose name holds a dot is listed under the text before that dot, which
      is not the name it is stored under. */
  lemma DottedNameIsCut()
    ensures IsModelFile("ensemble.v2.pkl")
    ensures Stem("ensemble.v2.pkl") == "ensemble"
  {
    var f := "ensemble" + ['.'] + "v2" + PickleExt;
    assert f == "ensemble.v2.pkl";
    assert f[|f| - |PickleExt|..] == PickleExt;
    assert f[..6][0] != "scaler"[0];
    assert f == "ensemble" + ['.'] + ("v2" + PickleExt);
    FirstPiece("ensemble", '.', "v2" + PickleExt);
  }

  // ---------------------------------------------------------------- window size

  /** `int(name.split('_')[-1])`: the window size a model name ends with; a last piece
      that is not an integer is reported, not propagated. */
  function ParseWindowSize(name: string): (r: Option<int>)
    ensures '_' !in name ==> r == ParseInt(name)
  {
    var parts := Split(name, '_');
    assert '_' !in name ==> parts == [name];
    ParseInt(parts[|parts| - 1])
  }

  /** Any name ending in `_<w>` carries the window size `w`. */
  lemma WindowSizeSuffix(prefix: string, w: int)
    ensures ParseWindowSize(prefix + "_" + IntToString(w)) == Some(w)
  {
    var name := prefix + "_" + IntToString(w);
    var t := IntToString(w);
    assert Split(name, '_')[|Split(name, '_')| - 1] == t by {
      assert name == prefix + ['_'] + t;
      LastPiece(prefix, '_', t);
    }
    LastPieceWindowSize(name, t);
    assert ParseInt(t) == Some(w) by {
      IntRoundTrip(w);
    }
  }

  /** The window size is read from the last `_` piece alone. */
  lemma LastPieceWindowSize(name: string, t: string)
    requires Split(name, '_')[|Split(name, '_')| - 1] == t
    ensures ParseWindowSize(name) == ParseInt(t)
  {
  }

  /** The name training gives an ensemble carries its window size. */
  lemma EnsembleWindowSize(w: int)
    ensures ParseWindowSize(EnsembleName(w)) == Some(w)
  {
    assert EnsembleName(w) == "ensemble" + "_" + IntToString(w);
    WindowSizeSuffix("ensemble", w);
  }

  /** A last piece that starts with one of the separators U+001C to U+001F is not a
      window size, although `str.isspace()` holds of the separator: `ensemble_\x1c50`
      is refused. */
  lemma SeparatorPaddedSizeRefused(prefix: string, c: char, digits: string)
    requires '\U{1C}' <= c <= '\U{1F}' && '_' !in digits
    ensures ParseWindowSize(prefix + "_" + [c] + digits) == None
  {
    var last := [c] + digits;
    var name := prefix + "_" + last;
    assert prefix + "_" + [c] + digits == name;
    var parts := Split(name, '_');
    assert parts[|parts| - 1] == last by {
      assert name == prefix + ['_'] + last;
      LastPiece(prefix, '_', last);
    }
    LeadingJunkRefused(c, digits);
  }

  /** A name whose last piece has no digit is refused. */
  lemma NoDigitNoWindowSize(prefix: string, last: string)
    requires '_' !in last
    requires forall k :: 0 <= k < |last| ==> !IsDigit(last[k])
    ensures ParseWindowSize(prefix + "_" + last) == None
  {
    var name := prefix + "_" + last;
    var parts := Split(name, '_');
    assert parts[|parts| - 1] == last by {
      assert name == prefix + ['_'] + last;
      LastPiece(prefix, '_', last);
    }
    ParseNeedsDigit(last);
  }

  /** How the `update_model` call ended, when it was made. */
  datatype PostOutcome = PostReply(status: int, text: string) | PostFailed

  /** The message the sidebar shows after pressing the update button. */
  datatype Notice = ModelUpdated | UpdateRefused(text: string) | ConnectionNotice | WindowSizeNotice

  /** What the button does: the request it sends (if any) and the message it shows. */
  datatype ServiceUpdate = ServiceUpdate(sent: Option<ModelInfo>, notice: Notice)

  /** `update_prediction_service`: the window size is read from the model name first; if
      that fails nothing is sent; otherwise folder, name and size are sent and the outcome
      of the call picks the message. */
  function UpdatePredictionService(folder: string, model: string, o: PostOutcome): (u: ServiceUpdate)
    ensures u.sent.None? <==> ParseWindowSize(model).None?
    ensures u.notice == WindowSizeNotice <==> ParseWindowSize(model).None?
    ensures u.sent.Some? ==> u.sent.value == ModelInfo(folder, model, ParseWindowSize(model).value)
    ensures u.notice == ModelUpdated <==> u.sent.Some? && o.PostReply? && o.status == 200
    ensures u.notice == ConnectionNotice <==> u.sent.Some? && o.PostFailed?
  {
    match ParseWindowSize(model)
    case None => ServiceUpdate(None, WindowSizeNotice)
    case Some(w) =>
      var info := ModelInfo(folder, model, w);
      match o
      case PostReply(status, text) =>
        ServiceUpdate(Some(info), if status == 200 then ModelUpdated else UpdateRefused(text))
      case PostFailed => ServiceUpdate(Some(info), ConnectionNotice)
  }

  // ---------------------------------------------------------------- state merge

  /** The dashboard's copy of the cycle, its cycle counter and its activity flag. */
  datatype Dash = Dash(
    angle: seq<real>,
    torque: seq<real>,
    prediction: string,
    processCount: nat,
    identifier: string,
    date: string,
    lastUpdate: int,
    isActive: bool)

  /** Ten seconds, in microseconds. */
  const InactivityLimit: int := 10_000_000

  /** The session state on first load at time `now`. */
  function Init(now: int): Dash {
    Dash([], [], "", 0, "", "", now, true)
  }

  /** How the `get_data` call ended. */
  datatype FetchOutcome = Fetched(status: int, body: Data) | FetchFailed

  /** The payload used when the data service cannot be read. */
  const DefaultPayload: Data := Data([], [], "Error", false, "", "")

  /** `fetch_data`: the service's cycle on 200, the default payload otherwise. */
  function FetchData(o: FetchOutcome): (d: Data)
    ensures o.Fetched? && o.status == 200 ==> d == o.body
    ensures !(o.Fetched? && o.status == 200) ==> !d.reset && d.angle == [] && d.torque == []
  {
    if o.Fetched? && o.status == 200 then o.body else DefaultPayload
  }

  /** A payload the dashboard takes in: a reset, or any sample. */
  predicate Accepted(d: Data) {
    d.reset || |d.angle| > 0 || |d.torque| > 0
  }

  /** `update_data(new_data)` at time `now`. */
  function UpdateData(s: Dash, d: Data, now: int): (t: Dash)
    ensures Accepted(d) ==> t.lastUpdate == now && t.isActive && t.prediction == d.prediction
    ensures d.reset ==>
              && t.processCount == s.processCount + 1
              && t.angle == d.angle && t.torque == d.torque
              && t.identifier == d.identifier && t.date == d.date
    ensures Accepted(d) && !d.reset ==>
              && t.processCount == s.processCount
              && t.angle == s.angle + d.angle && t.torque == s.torque + d.torque
              && t.identifier == s.identifier && t.date == s.date
    ensures !Accepted(d) ==>
              && t.(isActive := s.isActive) == s
              && (t.isActive <==> s.isActive && !(now - s.lastUpdate > InactivityLimit))
  {
    if Accepted(d) then
      var merged :=
        if d.reset then s.(processCount := s.processCount + 1, angle := d.angle, torque := d.torque,
                           identifier := d.identifier, date := d.date)
        else s.(angle := s.angle + d.angle, torque := s.torque + d.torque);
      merged.(lastUpdate := now, isActive := true, prediction := d.prediction)
    else if now - s.lastUpdate > InactivityLimit then s.(isActive := false)
    else s
  }

  /** The alert sound plays for an accepted payload predicted `NOT OK`. */
  predicate AlertSounds(d: Data) {
    Accepted(d) && d.prediction == "NOT OK"
  }

  /** The alert plays exactly when the poll is accepted and the prediction it leaves on
      screen is `NOT OK`; a rejected poll never plays it, whatever was shown before. */
  lemma AlertMatchesShownPrediction(s: Dash, d: Data, now: int)
    ensures AlertSounds(d) <==> Accepted(d) && UpdateData(s, d, now).prediction == "NOT OK"
  {
  }

  /** The first poll of a session: the dashboard starts active, with an empty cycle and
      a count of 0. An accepted payload is then shown exactly as it came, and counts as
      cycle 1 exactly when it is a reset. An empty payload within ten seconds of loading
      leaves the session as it was. */
  lemma FirstPoll(loaded: int, d: Data, now: int)
    ensures Init(loaded).isActive && Init(loaded).processCount == 0
    ensures Init(loaded).angle == [] && Init(loaded).torque == []
    ensures Accepted(d) ==>
              var t := UpdateData(Init(loaded), d, now);
              && t.angle == d.angle && t.torque == d.torque && t.prediction == d.prediction
              && t.processCount == (if d.reset then 1 else 0)
    ensures !Accepted(d) && now - loaded <= InactivityLimit ==> UpdateData(Init(loaded), d, now) == Init(loaded)
  {
    assert [] + d.angle == d.angle && [] + d.torque == d.torque;
  }

  /** A failed poll changes nothing but, after ten quiet seconds, the activity flag: its
      `Error` never reaches the screen and never sounds the alert. */
  lemma FailedFetchIsInvisible(s: Dash, o: FetchOutcome, now: int)
    requires !(o.Fetched? && o.status == 200)
    ensures var t := UpdateData(s, FetchData(o), now);
            && t.(isActive := s.isActive) == s
            && (s.prediction != "Error" ==> t.prediction != "Error")
    ensures !AlertSounds(FetchData(o))
  {
  }

  /** An empty poll never switches the dashboard on, and switches it off exactly when the
      last accepted payload is more than ten seconds old. */
  lemma QuietPollActivity(s: Dash, d: Data, now: int)
    requires !Accepted(d)
    ensures !s.isActive ==> !UpdateData(s, d, now).isActive
    ensures s.isActive ==> (UpdateData(s, d, now).isActive <==> now - s.lastUpdate <= InactivityLimit)
  {
  }

  /** The data service keeps its reset flag until the next batch, so polling the same
      reset cycle twice counts two cycles. */
  lemma ResetPolledTwice(s: Dash, d: Data, n1: int, n2: int)
    requires d.reset
    ensures UpdateData(UpdateData(s, d, n1), d, n2).processCount == s.processCount + 2
    ensures UpdateData(UpdateData(s, d, n1), d, n2).angle == d.angle
  {
  }

  /** The service returns the whole cycle, not what is new, so polling a non-reset cycle
      twice appends its samples twice. */
  lemma CyclePolledTwice(s: Dash, d: Data, n1: int, n2: int)
    requires !d.reset && Accepted(d)
    ensures UpdateData(UpdateData(s, d, n1), d, n2).angle == s.angle + d.angle + d.angle
    ensures UpdateData(UpdateData(s, d, n1), d, n2).torque == s.torque + d.torque + d.torque
  {
  }

  /** The session after a sequence of polls, each with the payload it got and its time. */
  function Poll(s: Dash, ds: seq<Data>, times: seq<int>): Dash
    requires |ds| == |times|
    decreases |ds|
  {
    if ds == [] then s else Poll(UpdateData(s, ds[0], times[0]), ds[1..], times[1..])
  }

  /** The number of payloads with the reset flag set. */
  function Resets(ds: seq<Data>): nat {
    if ds == [] then 0 else (if ds[0].reset then 1 else 0) + Resets(ds[1..])
  }

  /** The counter grows by exactly one per polled payload carrying the reset flag. */
  lemma {:induction false} PollCountsResets(s: Dash, ds: seq<Data>, times: seq<int>)
    requires |ds| == |times|
    ensures Poll(s, ds, times).processCount == s.processCount + Resets(ds)
    decreases |ds|
  {
    if ds != [] {
      PollCountsResets(UpdateData(s, ds[0], times[0]), ds[1..], times[1..]);
    }
  }

  /** A session that keeps getting failed polls goes inactive once ten seconds have passed
      since its last accepted payload. */
  lemma {:induction false} FailedPollsGoInactive(s: Dash, os: seq<FetchOutcome>, times: seq<int>)
    requires |os| == |times| > 0
    requires forall k :: 0 <= k < |os| ==> !(os[k].Fetched? && os[k].status == 200)
    requires times[|times| - 1] - s.lastUpdate > InactivityLimit
    ensures !Poll(s, seq(|os|, k requires 0 <= k < |os| => FetchData(os[k])), times).isActive
    decreases |os|
  {
    var ds := seq(|os|, k requires 0 <= k < |os| => FetchData(os[k]));
    var t := UpdateData(s, ds[0], times[0]);
    if |os| > 1 {
      var ds' := seq(|os| - 1, k requires 0 <= k < |os| - 1 => FetchData(os[1..][k]));
      assert ds[1..] == ds';
      FailedPollsGoInactive(t, os[1..], times[1..]);
    }
  }

  // ---------------------------------------------------------------- saving the plot

  /** The date with `:` and `/` replaced by `-`. */
  function SafeDate(date: string): string {
    ReplaceChar(ReplaceChar(date, ':', '-'), '/', '-')
  }

  /** The safe date keeps its length and holds neither `:` nor `/`; every other character
      stays in place; cleaning twice is cleaning once. */
  lemma SafeDateClean(date: string)
    ensures |SafeDate(date)| == |date|
    ensures ':' !in SafeDate(date) && '/' !in SafeDate(date)
    ensures forall i :: 0 <= i < |date| ==>
              SafeDate(date)[i] == (if date[i] == ':' || date[i] == '/' then '-' else date[i])
    ensures SafeDate(SafeDate(date)) == SafeDate(date)
  {
    var once := ReplaceChar(date, ':', '-');
    ReplaceRemoves(date, ':', '-');
    ReplaceRemoves(once, '/', '-');
    var r := SafeDate(date);
    assert ':' !in r by {
      forall i | 0 <= i < |r| ensures r[i] != ':' {
        assert once[i] != ':';
      }
    }
    ReplaceAbsent(r, ':', '-');
    ReplaceAbsent(r, '/', '-');
  }

  /** `<safe date>_<folder>_<id>_<prediction>.png` */
  function GraphFileName(date: string, folder: string, id: string, prediction: string): string {
    SafeDate(date) + "_" + folder + "_" + id + "_" + prediction + ".png"
  }

  /** What happens to the plot on one refresh. */
  datatype GraphAction =
    | NoGraph              // nothing to plot
    | SaveGraph(path: Path)
    | WarnInactive         // no new data for ten seconds
    | InfoSavingOff        // the operator turned saving off
    | InfoNotFailing       // the cycle is not predicted `NOT OK`

  /** There is something to plot: both lists hold samples. */
  predicate Plotted(s: Dash) {
    |s.angle| > 0 && |s.torque| > 0
  }

  /** The plot and save step: a plot exists only when both lists hold samples; it is saved
      under `graficas/<id>/` exactly when the dashboard is active, saving is on and the
      prediction is `NOT OK`; otherwise the first failing condition is reported. */
  function SaveDecision(s: Dash, saveGraphs: bool, folder: string): (a: GraphAction)
    ensures a == NoGraph <==> !Plotted(s)
    ensures a.SaveGraph? <==> Plotted(s) && s.isActive && saveGraphs && s.prediction == "NOT OK"
    ensures a.SaveGraph? ==>
              a.path == Path(["graficas", s.identifier, GraphFileName(s.date, folder, s.identifier, s.prediction)])
    ensures a == WarnInactive <==> Plotted(s) && !s.isActive
    ensures a == InfoSavingOff <==> Plotted(s) && s.isActive && !saveGraphs
    ensures a == InfoNotFailing <==> Plotted(s) && s.isActive && saveGraphs && s.prediction != "NOT OK"
  {
    if !Plotted(s) then NoGraph
    else if s.isActive && saveGraphs && s.prediction == "NOT OK" then
      SaveGraph(Path(["graficas", s.identifier, GraphFileName(s.date, folder, s.identifier, s.prediction)]))
    else if !s.isActive then WarnInactive
    else if !saveGraphs then InfoSavingOff
    else InfoNotFailing
  }

  /** A plot's file name ends in `.png` and, when the folder, identifier and prediction
      hold neither `:` nor `/`, so does the whole name. */
  lemma GraphFileNameSafe(date: string, folder: string, id: string, prediction: string)
    requires ':' !in folder && ':' !in id && ':' !in prediction
    requires '/' !in folder && '/' !in id && '/' !in prediction
    ensures ':' !in GraphFileName(date, folder, id, prediction)
    ensures '/' !in GraphFileName(date, folder, id, prediction)
    ensures EndsWith(GraphFileName(date, folder, id, prediction), ".png")
  {
    SafeDateClean(date);
    var head := SafeDate(date) + "_" + folder + "_" + id + "_" + prediction;
    assert GraphFileName(date, folder, id, prediction) == head + ".png";
  }
}

=== FILE: wrappers.dfy ===
/** Failure-carrying values shared by the services. */
module Wrappers {

  /** A value that may be absent. */
  datatype Option<+T> = None | Some(value: T)

  /** Either a result or the reason there is none. */
  datatype Result<+T, +E> = Success(value: T) | Failure(error: E)
}
